=== FILE: README.md ===
# prismic-element structured-text renderer, in Dafny

This project models the renderer in `index.js` of prismic-element, which turns
Prismic structured text into DOM elements. It has three parts, and the model
keeps them apart.

- **The block pass** (`StructuredText.prototype.asElement`). It resolves image
  links and gathers consecutive `list-item` / `o-list-item` blocks of one type
  into `group-<type>` containers. It then builds one element per group.
- **`insertSpans`**. It turns a block's text and its `[start, end)` spans into a
  forest of inline elements. It buckets the spans by start and end offset. The
  start buckets are sorted widest first with a stable sort, and the end buckets
  run latest-registered first. It then sweeps the offsets `0 .. |text|` with an
  explicit stack and a text buffer: first the closes, then the opens, then the
  character.
- **`asElement`** and the fixed `TAG_NAMES` table. This is a total dispatch on
  the descriptor's type.

The DOM is a datatype: `Element(tag, attrs, children) | Text | Raw | Comment`.
The link resolver is a function parameter `string -> Option<string>`.

Modules, following the program's structure:

| file | module | what |
|---|---|---|
| nodes.dfy | `Nodes` | node tree, `content` argument, text and element-count measures |
| serializer.dfy | `Serializer` | blocks, spans, descriptors, `TagNames`, `AsElement` |
| buckets.dfy | `Buckets` | start/end buckets, the stable widest-first sort, bucket counts |
| sweep_steps.dfy | `SweepSteps` | sweep state; `close`, flush, `open`, buffering; the sweep invariant |
| nesting.dfy | `Nesting` | nesting of properly nested spans; the nesting invariant |
| element_text.dfy | `ElementText` | the text each span's element holds; the text invariant |
| span_resolver.dfy | `SpanResolver` | the sweep loop and `insertSpans` |
| failed_link.dfy | `FailedLink` | the sweep as written, run until it throws; the failed-hyperlink defect and its corrected sweep |
| grouper.dfy | `Grouper` | image links and list grouping |
| render.dfy | `Render` | `blockContent` and the final `groups.map(asElement)` |

Each stack frame records the registration index of the span that opened it.
`close` records where it attached the popped element: under the span of the
frame below, or at the top level. This record (`parent`) is how the
contracts name elements. The sweep never reads it.

## Model

| member | source | states |
|---|---|---|
| Serializer.AsElement | index.js:292-369 | every descriptor yields an element. A `TAG_NAMES` type gets its fixed tag, its content as children, and a class exactly when the label is truthy. `image` is a `p` with class `block-img[ label]` and one child. `embed` is a `div` with the oEmbed attributes, `data-oembed-type="embed"`, a class exactly when the label is truthy, and the raw oEmbed HTML as its only child when there is any. `hyperlink` is an `a` with `href` exactly when the URL is set. `label` is a `span` whose class is the label's name. An unknown type is a `div` with the warning comment followed by the content |
| Serializer.ContentPreserved | index.js:292-369 | every type except image and embed keeps exactly the content's text and adds exactly one element; an embed carries no text |
| Serializer.EmbedNoText | index.js:333-353 | an embed's element is built from the block's oEmbed HTML alone, so it carries no text whatever the content |
| Serializer.ImageShape | index.js:311-331 | an image paragraph wraps its `img` in an `a` exactly when the link URL is truthy; its class is `"block-img " + label` when the label is truthy and `"block-img"` otherwise |
| Serializer.SpanShellEmpty | index.js:288-369 | the element `open` builds for a span, with no content, holds no text, and no element unless the span claims the type image |
| Nodes.Children | index.js:301-306 | an absent content adds no child, a string becomes exactly one text node holding it, a single node becomes a one-element list of that node, and an array stays as it is; text and element counts are those of the content |
| Buckets.StartIndices | index.js:192-198 | the spans starting at an offset, in registration order: all of them and only them |
| Buckets.EndBucket | index.js:192-198 | the end bucket holds exactly the spans ending at that offset, latest registered first (the `unshift` order) |
| Buckets.Insert | index.js:204-206 | one insertion step of the stable sort keeps the list's elements as a multiset, plus the new one |
| Buckets.InsertWidestFirst | index.js:204-206 | inserting into a widest-first list keeps it widest first |
| Buckets.InsertOpenOrder | index.js:204-206 | inserting an index smaller than all others keeps a list in open order: widest first, equal widths in registration order |
| Buckets.SortWidestFirst | index.js:204-206 | the sort is a permutation, widest first, and stable: sorting a registration-ordered list gives open order |
| Buckets.StartBucket | index.js:192-206 | the start bucket holds exactly the spans starting at that offset, in open order |
| Buckets.StartCountStep | index.js:192-206 | passing an offset adds its start bucket's size to the count of started spans |
| Buckets.EndCountStep | index.js:192-198 | passing an offset adds its end bucket's size to the count of ended spans |
| Buckets.EndsWithinStarts | index.js:192-216 | with non-empty spans, no more spans end by offset i + 1 than start by offset i, so the closes never outrun the opens |
| Buckets.AllCounted | index.js:213 | past the last offset every span has started and ended |
| SweepSteps.Close | index.js:251-265 | `close` pops the most recently opened frame, whichever span is closing; it clears the buffer, keeps `top` on the last frame, and records the popped span's destination as the frame below, or the top level |
| SweepSteps.CloseEffect | index.js:251-265 | the popped element receives the buffer as its last child, even when it is empty, and is appended to the frame below or to the top level; nothing else changes |
| SweepSteps.CloseMeasures | index.js:251-265 | `close` moves text and elements without losing or adding any |
| SweepSteps.Flush | index.js:218-227 | the flush before a start bucket empties the buffer and leaves the frames' span ids and the record as they were |
| SweepSteps.FlushMeasures | index.js:218-227 | the flush moves the buffer into a text node of the top frame or the top level, losing nothing |
| SweepSteps.Open | index.js:271-289 | `open` pushes the span's element and points `top` at it; a hyperlink without link data is skipped and changes nothing |
| SweepSteps.OpenMeasures | index.js:271-289 | an opened span adds no text, and exactly one element unless it claims the type image |
| SweepSteps.SpanFrame | index.js:272-288 | a span's frame names the span and holds no text. A hyperlink with link data is an `a` carrying `href` exactly when the resolver gives a URL, and then the resolved URL. A `TAG_NAMES` span gets its fixed tag and no attributes. A label is a `span` with the label's name as its class |
| SweepSteps.Shells | index.js:288 | the element `open` pushes for span k is built from span k and the resolver alone, one per span, in registration order |
| SweepSteps.Buffer | index.js:232-234 | the character at offset i is appended to the buffer; the last offset has none |
| SweepSteps.OpenAll | index.js:271-289 | opening a bucket pushes its spans in bucket order and records nothing |
| SweepSteps.OpenBucket | index.js:217-230 | the open half of an offset pushes exactly the start bucket |
| SweepSteps.CloseN | index.js:214-216 | the closes of an offset pop exactly the top n frames, keep the rest in order, and record a destination for exactly the popped spans |
| SweepSteps.Step | index.js:213-235 | when every span opens, one offset removes as many frames from the top as its end bucket has spans and then pushes its start bucket in order; the offset's character ends the buffer |
| SweepSteps.CloseCore | index.js:251-265 | `close` keeps the sweep invariant with one frame fewer; the ledger (each started span open once or closed once) is kept |
| SweepSteps.OpenAllCore | index.js:271-289 | opening a bucket of new, distinct spans keeps the sweep invariant with one frame and one started span more per span, and one element more when no span has the type image |
| SweepSteps.ClosePhase | index.js:214-216 | at each offset the closes pop only frames that exist: the stack holds at least as many frames as the end bucket has spans |
| SweepSteps.OpenPhase | index.js:217-230 | the flush and opens of an offset keep the invariant and add the start bucket to the started spans |
| SweepSteps.StepShape | index.js:213-235 | one offset pops as many frames as its end bucket has spans, then pushes its start bucket |
| SweepSteps.StepInv | index.js:213-235 | one offset keeps the sweep invariant: `top` tracks the stack, the held text is the text so far, one element per started span when no span has the type image, and each started span is open once or closed once |
| SweepSteps.InitialInv | index.js:208-213 | before the first offset nothing is started and nothing is held |
| SweepSteps.FinalInv | index.js:213-243 | after offset `\|text\|` the stack is empty, the held text is the whole text, and every span has been closed exactly once; when no span has the type image there is one element per span |
| Nesting.ImmediateParentUnique | index.js:251-264 | for properly nested spans, a span has at most one immediate parent |
| Nesting.CloseNNest | index.js:251-264 | the closes of an offset place each popped element under its immediate parent, or at the top level when nothing encloses it |
| Nesting.ClosePhaseNest | index.js:214-265 | for properly nested spans, the frames the closes of an offset pop are exactly those of the spans ending there, and each goes where its range says |
| Nesting.OpenNest | index.js:200-229 | pushing the start bucket in open order keeps the frames in enclosing order and exactly the live spans |
| Nesting.StepNest | index.js:213-235 | for properly nested spans, one offset keeps the nesting invariant |
| ElementText.CloseHoldsAt | index.js:251-256 | popping the top frame into the frame below keeps, for every lower frame, the text since its span's start |
| ElementText.CloseHeld | index.js:251-265 | `close` keeps every remaining frame holding the text since its span's start, and the popped element holds exactly the text since its span's start |
| ElementText.FlushHeld | index.js:218-227 | the flush keeps every frame holding the text since its span's start |
| ElementText.OpenAllHeld | index.js:271-289 | pushing spans that start at the current offset keeps every frame holding the text since its start; a new frame holds nothing yet |
| ElementText.BufferHeld | index.js:232-234 | buffering the character at offset i extends every open frame's text to offset i + 1 |
| ElementText.CloseNTexts | index.js:214-216 | when the frames popped at offset i are spans ending at i, each popped element holds exactly the text of its span's range |
| ElementText.ClosePhaseTexts | index.js:214-265 | for properly nested spans, the closes of an offset record for each ending span exactly the text of its range |
| ElementText.StepTexts | index.js:213-235 | for properly nested spans, one offset keeps the text invariant: open frames hold the text since their starts and every closed element holds exactly its span's text |
| SpanResolver.RunSweep | index.js:213-235 | the sweep loop keeps the sweep invariant, and for properly nested spans the nesting and text invariants |
| SpanResolver.Resolve | index.js:189-245 | after the sweep the stack is empty, no text is lost, every span is closed exactly once, and, when no span has the type image, there is one element per span. For properly nested spans every element sits under its immediate parent or at the top level, and holds exactly the text of its span's range |
| SpanResolver.PlacedIff | index.js:251-264 | for properly nested spans, a recorded destination is span j exactly when j is the immediate parent, and the top level exactly when nothing encloses the span |
| SpanResolver.NestingPlacement | index.js:200-206 | strong over [0, 10) around em over [2, 5): strong is outermost and em's immediate parent is strong |
| SpanResolver.NestingExample | index.js:184-290 | on any text of length at least 10, strong over [0, 10) around em over [2, 5) keeps the whole text; strong goes to the top level holding the first ten characters, and em goes inside strong holding characters 2 to 4 |
| SpanResolver.InsertSpans | index.js:184-245 | with no spans, a single text node holding the whole text; otherwise an array whose text is the whole text, with one element per span when no span has the type image, and, for properly nested spans, each element where its range says and holding exactly its range's text |
| FailedLink.Advance | index.js:214-216 | one offset as written fails exactly when its end bucket has more spans than there are open frames; otherwise it is the sweep's step |
| FailedLink.RunTo | index.js:213-235 | the sweep as written stops only at an offset whose end bucket asks for more closes than there are open frames |
| FailedLink.OpenAllSize | index.js:271-289 | opening a bucket pushes at most one frame per span, and none for a span that does not open |
| FailedLink.StepSize | index.js:213-235 | one offset as written pushes no frame for a span that does not open when that span starts there |
| FailedLink.DeficitStep | index.js:213-235 | with a span that does not open, each offset keeps the open frames plus one at most the spans started less those ended |
| FailedLink.BalanceStep | index.js:213-235 | when every span opens, every offset has enough frames to close, and an offset with enough frames keeps the frame balance |
| FailedLink.RunToBalance | index.js:213-235 | the run as written keeps the frame balance while it goes, and never stops when every span opens |
| FailedLink.RunToEnd | index.js:213-235 | the run as written gets past the last offset exactly when every span opens, and then no frame is open |
| FailedLink.FailedLinkUnderflow | index.js:251-281 | as written, any spans inside the text of which one is a hyperlink without link data make the sweep reach an offset whose closes pop an empty stack: `open` skipped the span but its end bucket still closes it |
| FailedLink.RunToInv | index.js:213-235 | when every span opens, the run as written never stops and keeps the sweep invariant |
| FailedLink.CompletesIff | index.js:213-245 | for spans inside the text, the sweep as written completes exactly when every span opens, and then it has closed every frame and keeps the whole text |
| FailedLink.Kept | index.js:271-281 | the spans kept are spans of the input that open, no more of them than the input has |
| FailedLink.KeptMultiset | index.js:271-281 | every span that opens is kept exactly as often as it occurs in the input, and no span that does not open is kept |
| FailedLink.KeptAppend | index.js:271-281 | the spans kept from a concatenation are those kept from the first part followed by those kept from the second, and a single span is kept exactly when it opens: the registration order is preserved |
| FailedLink.KeptAll | index.js:271-281 | when every span opens, the corrected sweep drops nothing |
| FailedLink.InsertSpansSkipping | index.js:184-290 | with failed hyperlinks dropped before bucketing, every span range inside the text is accepted, all text is kept, and when no span has the type image there is one element per span that opens |
| Grouper.LinkImage | index.js:150-154 | an image block with a link target gets the resolved target as its link URL and no other field changes; every other block is unchanged |
| Grouper.LinkAll | index.js:150-154 | image link resolution applies to each block position by position, keeping their number and order |
| Grouper.GroupBlocks | index.js:149-171 | the groups hold the link-resolved blocks in order; each list group is a non-empty run of items of one type named `group-<type>`, a lone block is never a list item, no two neighbouring list groups share a type, and there are no more groups than blocks |
| Grouper.PushGroup | index.js:156-166 | pushing a lone block, or a list group of a new type, keeps a valid grouping |
| Grouper.JoinGroup | index.js:167-170 | appending an item to the open list group of its type keeps a valid grouping |
| Grouper.RunNotSplit | index.js:156-170 | in a valid grouping a list group takes the whole run of same-type items that begins with it |
| Grouper.GroupingUnique | index.js:149-171 | a sequence of blocks has only one valid grouping, so the grouping properties pin the result down completely |
| Render.BlockElement | index.js:173-181 | a block's element keeps the block's text (except image and embed) and, when no span has the type image, adds one element per opening span |
| Render.GroupElement | index.js:173-181 | a list group becomes `ul` or `ol` with one `li` per item, keeping the items' text |
| Render.RenderGroups | index.js:181 | one element per group, in order, carrying all the groups' text |
| Render.Render | index.js:135-182 | grouping then rendering: the groups are the unique grouping of the link-resolved blocks, one element per group, and no text is lost when no block is an image or an embed |

## Left out

- The DOM primitive (`bel`, `createElement`, `document.createTextNode`) becomes the `Node` datatype. Null or undefined attribute values are omitted rather than rendered. Both `className` and the `"class"` attribute are written as `"class"`.
- The `Fragments.*.prototype.asElement` wrappers (index.js:25-128) are left out. They are thin templates over Prismic objects that are not part of this model.
- `Fragments.initField`, `link.url(linkResolver)` and the ctx compatibility shim (index.js:143-147) become the resolver parameter. An image's `linkTo` is resolved by that same parameter.
- Grouper.LinkAll: returns new blocks, while the original writes `linkUrl` into the caller's own block objects, where it stays after rendering. A `linkTo` whose data does not convert makes `link.url` throw in the original (index.js:152-153); `linkTo` is a plain optional target here, so that case cannot be expressed.
- The `!Array.isArray(this.blocks)` guard (index.js:139-141) is left out: blocks are always a sequence here.
- `console.error` logging (index.js:279) is left out.
- The embed's raw HTML is an opaque `Raw` leaf. The HTML is not parsed.
- A missing `provider`, `oembed` or `data` field makes the original throw. Here such a field reads as absent.
- SpanResolver.InsertSpans: requires every span to satisfy `0 <= start < end <= |text|` and to open. Zero-length, reversed and out-of-range spans mis-nest, vanish, or make `close` throw on an empty stack in the original, and are not modelled. For example, a lone span over [0, 0) is closed at offset 0 before it is opened. A hyperlink without link data is the defect under Findings.
- SpanResolver.Resolve: the element count holds only when no span claims the type "image". Such a span's element starts with an `img` element inside it.
- Render.Render: requires spans in range. Text is kept only when no block is an image or embed, because those drop the block's text by design.
- Render.BlockElement: it renders with the corrected sweep, which drops a hyperlink without link data before bucketing. The original throws on such a span instead; that behaviour is `FailedLink.RunTo`.
- Render.Render: uses the same corrected sweep as `Render.BlockElement`, so a block with a failed hyperlink renders instead of throwing.
- Offsets index `string`, a sequence of `char`. JavaScript indexes UTF-16 code units, so a character outside the Basic Multilingual Plane takes two offsets there and one here. Span offsets into such text would mean different characters here than in the original, and the original can split a surrogate pair between two text nodes, which a sequence of `char` cannot.
- `TagNames` holds only the fourteen table entries. In JavaScript `TAG_NAMES[type]` also finds inherited properties such as `constructor` or `toString`, so for such a type the original calls `createElement` with a function as the tag, which throws. Here such types take the unknown-type fallback.
- The sort's stability assumes a stable `Array.prototype.sort`, as ES2019 and later guarantee.
- The element built for a span depends only on the span and the resolver. The model therefore builds all span elements before the sweep (`Shells`), and `open` pushes the prebuilt one.
- SpanResolver.NestingExample: the worked example's full node shape (`strong[text, em[text], text]`) is not evaluated. Its placement and each element's text are proved.
- Two behaviours of the code a reader might not expect, both modelled as written:
  - A hyperlink whose resolver returns nothing is still pushed, as an `a` without `href`. Only link data that does not convert is skipped.
  - `data-oembed-type` is the element's own type (`"embed"`), not the oEmbed type.

## Findings

| source | as written | input that shows it | evidently intended | confidence | as-written member | corrected member |
|---|---|---|---|---|---|---|
| index.js:251-281 | `open` returns without pushing for a hyperlink whose data does not convert, but the span stays in its end bucket, so `close` still pops at its end | text `"ab"`, one hyperlink span over [0, 1) whose data is not a link: at offset 1 `close` pops an empty stack and appends to `undefined` | the failed span is dropped entirely, its text staying in place | medium, not executed | FailedLink.FailedLinkUnderflow | FailedLink.InsertSpansSkipping |

=== FILE: buckets.dfy ===
/** The per-offset buckets insertSpans builds before its sweep.

    Spans are named by their registration index (their position in the
    block's span array). `StartBucket(spans, i)` lists the spans that open at
    offset i, widest first, ties in registration order (a stable sort);
    `EndBucket(spans, i)` lists those that close at i, latest registered
    first (each is put at the front of its list as it is registered). */
module Buckets {
  import opened Serializer

  /** The length of a span's range. */
  function Len(s: Span): int {
    s.end - s.start
  }

  /** Span a is opened before span b at a shared offset: it is wider, or as
      wide and registered earlier. */
  predicate Before(spans: seq<Span>, a: nat, b: nat)
    requires a < |spans| && b < |spans|
  {
    Len(spans[a]) > Len(spans[b]) || (Len(spans[a]) == Len(spans[b]) && a < b)
  }

  predicate Indices(spans: seq<Span>, ks: seq<nat>) {
    forall p :: 0 <= p < |ks| ==> ks[p] < |spans|
  }

  predicate Increasing(ks: seq<nat>) {
    forall p, q :: 0 <= p < q < |ks| ==> ks[p] < ks[q]
  }

  /** Lengths never grow along the list. */
  predicate WidestFirst(spans: seq<Span>, ks: seq<nat>)
    requires Indices(spans, ks)
  {
    forall p, q :: 0 <= p < q < |ks| ==> Len(spans[ks[p]]) >= Len(spans[ks[q]])
  }

  /** Strictly ordered by `Before`: widest first, equal widths in registration order. */
  predicate OpenOrder(spans: seq<Span>, ks: seq<nat>)
    requires Indices(spans, ks)
  {
    forall p, q :: 0 <= p < q < |ks| ==> Before(spans, ks[p], ks[q])
  }

  /** The spans starting at offset i, in registration order. */
  function StartIndices(spans: seq<Span>, i: int): (ks: seq<nat>)
    ensures Indices(spans, ks) && Increasing(ks)
    ensures forall p :: 0 <= p < |ks| ==> spans[ks[p]].start == i
    ensures forall k :: 0 <= k < |spans| && spans[k].start == i ==> k in ks
    decreases |spans|
  {
    if |spans| == 0 then []
    else
      var n := |spans| - 1;
      StartIndices(spans[..n], i) + (if spans[n].start == i then [n] else [])
  }

  /** The end bucket of offset i: each span ending there is put in front of
      those registered before it, so the list runs latest-registered first. */
  function EndBucket(spans: seq<Span>, i: int): (ks: seq<nat>)
    ensures Indices(spans, ks)
    ensures forall p, q :: 0 <= p < q < |ks| ==> ks[p] > ks[q]
    ensures forall p :: 0 <= p < |ks| ==> spans[ks[p]].end == i
    ensures forall k :: 0 <= k < |spans| && spans[k].end == i ==> k in ks
    decreases |spans|
  {
    if |spans| == 0 then []
    else
      var n := |spans| - 1;
      (if spans[n].end == i then [n] else []) + EndBucket(spans[..n], i)
  }

  /** One insertion step of the stable sort: x goes in front of the first
      element that is not longer than it. */
  function Insert(spans: seq<Span>, x: nat, ks: seq<nat>): (r: seq<nat>)
    requires x < |spans| && Indices(spans, ks)
    ensures Indices(spans, r)
    ensures multiset(r) == multiset(ks) + multiset{x}
    decreases |ks|
  {
    if |ks| == 0 then [x]
    else if Len(spans[x]) >= Len(spans[ks[0]]) then [x] + ks
    else
      var rest := Insert(spans, x, ks[1..]);
      assert ks == [ks[0]] + ks[1..];
      [ks[0]] + rest
  }

  /** Every element of an insertion result is x or came from ks. */
  lemma InsertFrom(spans: seq<Span>, x: nat, ks: seq<nat>, p: int)
    requires x < |spans| && Indices(spans, ks)
    requires 0 <= p < |Insert(spans, x, ks)|
    ensures Insert(spans, x, ks)[p] == x || Insert(spans, x, ks)[p] in ks
  {
    var r := Insert(spans, x, ks);
    assert r[p] in multiset(r);
  }

  /** Insertion keeps a widest-first list widest first. */
  lemma {:induction false} InsertWidestFirst(spans: seq<Span>, x: nat, ks: seq<nat>)
    requires x < |spans| && Indices(spans, ks)
    requires WidestFirst(spans, ks)
    ensures WidestFirst(spans, Insert(spans, x, ks))
    decreases |ks|
  {
    if |ks| > 0 && Len(spans[x]) < Len(spans[ks[0]]) {
      InsertWidestFirst(spans, x, ks[1..]);
      var rest := Insert(spans, x, ks[1..]);
      forall q | 0 <= q < |rest| ensures Len(spans[ks[0]]) >= Len(spans[rest[q]]) {
        InsertFrom(spans, x, ks[1..], q);
      }
    }
  }

  /** Insertion of an index smaller than all others keeps a list in open order. */
  lemma {:induction false} InsertOpenOrder(spans: seq<Span>, x: nat, ks: seq<nat>)
    requires x < |spans| && Indices(spans, ks)
    requires OpenOrder(spans, ks)
    requires forall p :: 0 <= p < |ks| ==> x < ks[p]
    ensures OpenOrder(spans, Insert(spans, x, ks))
    decreases |ks|
  {
    if |ks| > 0 && Len(spans[x]) < Len(spans[ks[0]]) {
      InsertOpenOrder(spans, x, ks[1..]);
      var rest := Insert(spans, x, ks[1..]);
      forall q | 0 <= q < |rest| ensures Before(spans, ks[0], rest[q]) {
        InsertFrom(spans, x, ks[1..], q);
      }
    }
  }

  /** The comparator sort of the start buckets, longest range first. The sort
      is stable, so equally long spans keep their relative order. */
  function SortWidestFirst(spans: seq<Span>, ks: seq<nat>): (r: seq<nat>)
    requires Indices(spans, ks)
    ensures Indices(spans, r)
    ensures multiset(r) == multiset(ks)
    ensures WidestFirst(spans, r)
    ensures Increasing(ks) ==> OpenOrder(spans, r)
    decreases |ks|
  {
    if |ks| == 0 then []
    else
      var tail := SortWidestFirst(spans, ks[1..]);
      assert ks == [ks[0]] + ks[1..];
      InsertWidestFirst(spans, ks[0], tail);
      SortOpenOrderStep(spans, ks, tail);
      Insert(spans, ks[0], tail)
  }

  lemma SortOpenOrderStep(spans: seq<Span>, ks: seq<nat>, tail: seq<nat>)
    requires |ks| > 0 && Indices(spans, ks) && Indices(spans, tail)
    requires multiset(tail) == multiset(ks[1..])
    requires Increasing(ks[1..]) ==> OpenOrder(spans, tail)
    ensures Increasing(ks) ==> OpenOrder(spans, Insert(spans, ks[0], tail))
  {
    if Increasing(ks) {
      forall p | 0 <= p < |tail| ensures ks[0] < tail[p] {
        assert tail[p] in multiset(ks[1..]);
      }
      InsertOpenOrder(spans, ks[0], tail);
    }
  }

  /** The start bucket of offset i, in the order its spans are opened. */
  function StartBucket(spans: seq<Span>, i: int): (ks: seq<nat>)
    ensures Indices(spans, ks) && OpenOrder(spans, ks)
    ensures forall p :: 0 <= p < |ks| ==> spans[ks[p]].start == i
    ensures forall k :: 0 <= k < |spans| && spans[k].start == i ==> k in ks
  {
    var plain := StartIndices(spans, i);
    var ks := SortWidestFirst(spans, plain);
    assert forall p :: 0 <= p < |ks| ==> ks[p] in multiset(plain);
    assert forall k :: 0 <= k < |spans| && spans[k].start == i ==> k in multiset(ks);
    ks
  }

  /** Sorting keeps every span of the bucket: it is as long as the list in
      registration order. */
  lemma StartBucketSize(spans: seq<Span>, i: int)
    ensures |StartBucket(spans, i)| == |StartIndices(spans, i)|
  {
    var plain := StartIndices(spans, i);
    var ks := SortWidestFirst(spans, plain);
    assert |ks| == |multiset(ks)| == |multiset(plain)| == |plain|;
  }

  /** The number of spans that start before offset i. */
  function NumStartBefore(spans: seq<Span>, i: int): nat
    decreases |spans|
  {
    if |spans| == 0 then 0
    else
      var n := |spans| - 1;
      NumStartBefore(spans[..n], i) + (if spans[n].start < i then 1 else 0)
  }

  /** The number of spans that end before offset i. */
  function NumEndBefore(spans: seq<Span>, i: int): nat
    decreases |spans|
  {
    if |spans| == 0 then 0
    else
      var n := |spans| - 1;
      NumEndBefore(spans[..n], i) + (if spans[n].end < i then 1 else 0)
  }

  lemma {:induction false} StartIndicesCount(spans: seq<Span>, i: int)
    ensures NumStartBefore(spans, i + 1) == NumStartBefore(spans, i) + |StartIndices(spans, i)|
    decreases |spans|
  {
    if |spans| > 0 {
      StartIndicesCount(spans[..|spans| - 1], i);
    }
  }

  /** Moving past offset i adds the spans of its start bucket. */
  lemma StartCountStep(spans: seq<Span>, i: int)
    ensures NumStartBefore(spans, i + 1) == NumStartBefore(spans, i) + |StartBucket(spans, i)|
  {
    StartIndicesCount(spans, i);
    StartBucketSize(spans, i);
  }

  /** Moving past offset i adds the spans of its end bucket. */
  lemma {:induction false} EndCountStep(spans: seq<Span>, i: int)
    ensures NumEndBefore(spans, i + 1) == NumEndBefore(spans, i) + |EndBucket(spans, i)|
    decreases |spans|
  {
    if |spans| > 0 {
      EndCountStep(spans[..|spans| - 1], i);
    }
  }

  /** When every span starts before it ends, no more spans have ended by
      offset i + 1 than have started by offset i. */
  lemma {:induction false} EndsWithinStarts(spans: seq<Span>, i: int)
    requires forall k :: 0 <= k < |spans| ==> spans[k].start < spans[k].end
    ensures NumEndBefore(spans, i + 1) <= NumStartBefore(spans, i)
    decreases |spans|
  {
    if |spans| > 0 {
      EndsWithinStarts(spans[..|spans| - 1], i);
    }
  }

  /** Past the last offset every span has started and ended. */
  lemma {:induction false} AllCounted(spans: seq<Span>, last: int)
    requires forall k :: 0 <= k < |spans| ==> spans[k].start <= last && spans[k].end <= last
    ensures NumStartBefore(spans, last + 1) == |spans|
    ensures NumEndBefore(spans, last + 1) == |spans|
    decreases |spans|
  {
    if |spans| > 0 {
      AllCounted(spans[..|spans| - 1], last);
    }
  }
}

=== FILE: element_text.dfy ===
/** The text each finished span element holds.

    While a span's frame is open, everything buffered since the span's start
    offset sits in that frame, in the frames above it, or in the buffer. So
    when `close` pops the frame at offset i, the finished element holds
    exactly the text from the span's start to i. For properly nested spans
    the frames popped at i are those of the spans ending at i, so every
    element holds exactly the text of its span's range. */
module ElementText {
  import opened Nodes
  import opened Serializer
  import opened Buckets
  import opened SweepSteps
  import opened Nesting

  /** The frame at position p, with the frames above it and the buffer,
      holds exactly the text from its span's start up to offset `upto`. */
  ghost predicate HoldsAt(text: string, spans: seq<Span>, stack: seq<Frame>, content: string, p: nat, upto: nat)
    requires p < |stack|
  {
    stack[p].id < |spans| && 0 <= spans[stack[p].id].start <= upto <= |text|
    && FramesText(stack[p..]) + content == text[spans[stack[p].id].start..upto]
  }

  /** Every open frame holds the text since its span's start. */
  ghost predicate HeldSince(text: string, spans: seq<Span>, st: Sweep, upto: nat) {
    upto <= |text|
    && forall p: nat :: p < |st.stack| ==> HoldsAt(text, spans, st.stack, st.content, p, upto)
  }

  /** Every recorded element text is the text of its span's range. */
  ghost predicate TextsMatch(text: string, spans: seq<Span>, texts: map<nat, string>) {
    forall k :: k in texts ==>
      k < |spans| && 0 <= spans[k].start <= spans[k].end <= |text|
      && texts[k] == text[spans[k].start..spans[k].end]
  }

  /** The text invariant at the head of offset i: the open frames hold the
      text since their starts, each closed element holds its span's range,
      and a text is recorded for exactly the closed elements. */
  ghost predicate TextInv(text: string, spans: seq<Span>, i: nat, st: Sweep) {
    && HeldSince(text, spans, st, if i <= |text| then i else |text|)
    && TextsMatch(text, spans, st.texts)
    && st.texts.Keys == st.parent.Keys
  }

  lemma FramesTextOne(f: Frame)
    ensures FramesText([f]) == TextOfSeq(f.children)
  {
    FramesTextSnoc([], f);
    assert [] + [f] == [f];
  }

  /** Appending a node to the top frame adds its text to every suffix of
      the frames, and leaves each frame's span as it was. */
  lemma SuffixTop(stack: seq<Frame>, p: nat, x: Node)
    requires p < |stack|
    ensures var n := |stack| - 1;
      var stack' := stack[n := stack[n].(children := stack[n].children + [x])];
      FramesText(stack'[p..]) == FramesText(stack[p..]) + TextOf(x) && stack'[p].id == stack[p].id
  {
    var n := |stack| - 1;
    var stack' := stack[n := stack[n].(children := stack[n].children + [x])];
    var suf := stack[p..];
    assert stack'[p..] == suf[n - p := suf[n - p].(children := suf[n - p].children + [x])];
    TopTextMeasures(suf, x);
  }

  /** With a frame below the popped one, `close` appends the finished
      element to that frame and clears the buffer. */
  lemma CloseBelow(st: Sweep)
    requires |st.stack| > 1 && TopInv(st)
    ensures var n := |st.stack| - 1;
      var pre := st.stack[..n];
      var el := Finish(st.stack[n], st.content);
      Close(st).stack == pre[n - 1 := pre[n - 1].(children := pre[n - 1].children + [el])]
      && Close(st).content == ""
  {
  }

  /** `close` keeps what each frame below the popped one holds: the popped
      element, holding the text the popped frame and buffer held, is
      appended to the frame below it. */
  lemma CloseHoldsAt(text: string, spans: seq<Span>, st: Sweep, upto: nat, p: nat)
    requires |st.stack| > 1 && TopInv(st) && p < |st.stack| - 1
    requires HoldsAt(text, spans, st.stack, st.content, p, upto)
    ensures HoldsAt(text, spans, Close(st).stack, Close(st).content, p, upto)
  {
    var n := |st.stack| - 1;
    var r := Close(st);
    var a := FramesText(st.stack[..n][p..]);
    var b := TextOfSeq(st.stack[n].children);
    CloseSuffixAfter(st, p);
    SuffixSplit(st.stack, p);
    assert a + (b + st.content) == (a + b) + st.content;
    HoldsTransfer(text, spans, st.stack, st.content, r.stack, r.content, p, upto);
  }

  /** After `close`, the frames from position p up hold what they held
      below the popped frame, then the popped frame's children and the
      buffer. */
  lemma CloseSuffixAfter(st: Sweep, p: nat)
    requires |st.stack| > 1 && TopInv(st) && p < |st.stack| - 1
    ensures var n := |st.stack| - 1;
      FramesText(Close(st).stack[p..]) + Close(st).content
        == FramesText(st.stack[..n][p..]) + (TextOfSeq(st.stack[n].children) + st.content)
      && Close(st).stack[p].id == st.stack[p].id
  {
    var n := |st.stack| - 1;
    var f := st.stack[n];
    CloseBelow(st);
    FinishMeasures(f, st.content);
    SuffixTop(st.stack[..n], p, Finish(f, st.content));
  }

  /** The frames from position p up hold what those below the top hold,
      then the top frame's children. */
  lemma SuffixSplit(stack: seq<Frame>, p: nat)
    requires p < |stack| - 1
    ensures var n := |stack| - 1;
      FramesText(stack[p..]) == FramesText(stack[..n][p..]) + TextOfSeq(stack[n].children)
  {
    var n := |stack| - 1;
    assert stack[p..] == stack[..n][p..] + [stack[n]];
    FramesTextSnoc(stack[..n][p..], stack[n]);
  }

  /** What a frame holds depends only on its span and on the text of it,
      the frames above it and the buffer. */
  lemma HoldsTransfer(text: string, spans: seq<Span>, stack: seq<Frame>, content: string,
                      stack': seq<Frame>, content': string, p: nat, upto: nat)
    requires p < |stack| && p < |stack'| && stack'[p].id == stack[p].id
    requires FramesText(stack'[p..]) + content' == FramesText(stack[p..]) + content
    requires HoldsAt(text, spans, stack, content, p, upto)
    ensures HoldsAt(text, spans, stack', content', p, upto)
  {
  }

  /** `close` keeps what the frames below hold, and the element it finishes
      holds the text since its span's start. */
  lemma CloseHeld(text: string, spans: seq<Span>, st: Sweep, upto: nat)
    requires |st.stack| > 0 && TopInv(st) && HeldSince(text, spans, st, upto)
    ensures HeldSince(text, spans, Close(st), upto)
    ensures var f := st.stack[|st.stack| - 1];
      f.id < |spans| && 0 <= spans[f.id].start <= upto
      && TextOf(Finish(f, st.content)) == text[spans[f.id].start..upto]
  {
    var n := |st.stack| - 1;
    var f := st.stack[n];
    FinishMeasures(f, st.content);
    assert HoldsAt(text, spans, st.stack, st.content, n, upto);
    assert st.stack[n..] == [f];
    FramesTextOne(f);
    var r := Close(st);
    forall p: nat | p < |r.stack| ensures HoldsAt(text, spans, r.stack, r.content, p, upto) {
      assert HoldsAt(text, spans, st.stack, st.content, p, upto);
      CloseHoldsAt(text, spans, st, upto, p);
    }
  }

  /** The flush moves the buffer into the top frame, which every open frame
      counts as above it. */
  lemma FlushHeld(text: string, spans: seq<Span>, st: Sweep, upto: nat)
    requires TopInv(st) && HeldSince(text, spans, st, upto)
    ensures HeldSince(text, spans, Flush(st), upto)
  {
    if |st.content| == 0 {
      assert Flush(st) == st;
    } else if |st.stack| > 0 {
      var n := |st.stack| - 1;
      var x := Text(st.content);
      var r := Flush(st);
      assert r.stack == st.stack[n := st.stack[n].(children := st.stack[n].children + [x])];
      assert r.content == "";
      forall p: nat | p < |r.stack| ensures HoldsAt(text, spans, r.stack, r.content, p, upto) {
        assert HoldsAt(text, spans, st.stack, st.content, p, upto);
        SuffixTop(st.stack, p, x);
      }
    }
  }

  /** Opening a span that starts here, with the buffer empty, pushes a frame
      holding the empty text from its start to here. */
  lemma OpenHeld(text: string, spans: seq<Span>, st: Sweep, k: nat, shells: seq<Frame>, upto: nat)
    requires ShellsFor(spans, shells) && k < |spans| && spans[k].start == upto
    requires st.content == "" && HeldSince(text, spans, st, upto)
    ensures HeldSince(text, spans, Open(st, spans, k, shells), upto)
  {
    if Opens(spans[k]) {
      var sh := shells[k];
      var r := Open(st, spans, k, shells);
      var n := |st.stack|;
      assert r.stack == st.stack + [sh] && r.content == "";
      forall p: nat | p < |r.stack| ensures HoldsAt(text, spans, r.stack, r.content, p, upto) {
        if p == n {
          assert r.stack[p..] == [sh];
          FramesTextOne(sh);
        } else {
          assert HoldsAt(text, spans, st.stack, st.content, p, upto);
          assert r.stack[p..] == st.stack[p..] + [sh];
          FramesTextSnoc(st.stack[p..], sh);
        }
      }
    }
  }

  lemma {:induction false} OpenAllHeld(text: string, spans: seq<Span>, st: Sweep, ks: seq<nat>,
                                        shells: seq<Frame>, upto: nat)
    requires ShellsFor(spans, shells) && Indices(spans, ks)
    requires forall p :: 0 <= p < |ks| ==> spans[ks[p]].start == upto
    requires st.content == "" && HeldSince(text, spans, st, upto)
    ensures HeldSince(text, spans, OpenAll(st, spans, ks, shells), upto)
    decreases |ks|
  {
    if |ks| > 0 {
      OpenHeld(text, spans, st, ks[0], shells, upto);
      var st' := Open(st, spans, ks[0], shells);
      var tail := ks[1..];
      assert forall p :: 0 <= p < |tail| ==> tail[p] == ks[p + 1];
      OpenAllHeld(text, spans, st', tail, shells, upto);
    }
  }

  /** Buffering the character at offset i extends what every frame holds by
      that character. */
  lemma BufferHeld(text: string, spans: seq<Span>, st: Sweep, i: nat)
    requires HeldSince(text, spans, st, if i <= |text| then i else |text|)
    ensures HeldSince(text, spans, Buffer(st, text, i), if i + 1 <= |text| then i + 1 else |text|)
  {
    if i < |text| {
      var r := Buffer(st, text, i);
      var j := i + 1;
      assert r.stack == st.stack && r.content == st.content + [text[i]];
      forall p: nat | p < |r.stack| ensures HoldsAt(text, spans, r.stack, r.content, p, j) {
        assert HoldsAt(text, spans, st.stack, st.content, p, i);
        var s := spans[st.stack[p].id].start;
        assert text[s..j] == text[s..i] + [text[i]];
      }
    }
  }

  /** n closes at offset i, when the top n frames are of spans ending at i,
      record for each popped element the text of its span's range. */
  lemma {:induction false} CloseNTexts(text: string, spans: seq<Span>, st: Sweep, n: nat, i: nat)
    requires TopInv(st) && n <= |st.stack| && HeldSince(text, spans, st, i)
    requires TextsMatch(text, spans, st.texts) && st.texts.Keys == st.parent.Keys
    requires forall p :: |st.stack| - n <= p < |st.stack| ==>
      st.stack[p].id < |spans| && spans[st.stack[p].id].end == i
    ensures HeldSince(text, spans, CloseN(st, n), i)
    ensures TextsMatch(text, spans, CloseN(st, n).texts)
    ensures CloseN(st, n).texts.Keys == CloseN(st, n).parent.Keys
    decreases n
  {
    if n > 0 {
      var s := |st.stack|;
      CloseHeld(text, spans, st, i);
      var r := Close(st);
      var f := st.stack[s - 1];
      assert r.texts == st.texts[f.id := text[spans[f.id].start..spans[f.id].end]];
      forall p | |r.stack| - (n - 1) <= p < |r.stack|
        ensures r.stack[p].id < |spans| && spans[r.stack[p].id].end == i
      {
        assert IdsOf(r.stack)[p] == IdsOf(st.stack)[p];
      }
      CloseNTexts(text, spans, r, n - 1, i);
    }
  }

  /** Before the first offset nothing is open and nothing is recorded. */
  lemma InitialText(text: string, spans: seq<Span>)
    ensures TextInv(text, spans, 0, Initial)
  {
  }

  /** The flush and opens of offset i keep the open frames holding the
      text since their starts. */
  lemma OpenBucketHeld(text: string, spans: seq<Span>, st: Sweep, shells: seq<Frame>, i: nat)
    requires ShellsFor(spans, shells) && TopInv(st) && HeldSince(text, spans, st, i)
    ensures HeldSince(text, spans, OpenBucket(st, spans, shells, i), i)
  {
    var b := StartBucket(spans, i);
    if |b| > 0 {
      FlushHeld(text, spans, st, i);
      OpenAllHeld(text, spans, Flush(st), b, shells, i);
    }
  }

  /** The closes of offset i, for laminar spans, pop exactly the frames of
      spans ending at i, so each popped element is recorded with the text
      of its span's range. */
  lemma ClosePhaseTexts(text: string, spans: seq<Span>, i: nat, st: Sweep)
    requires WellFormed(text, spans) && i <= |text| && TopInv(st)
    requires NestInv(spans, i, st) && TextInv(text, spans, i, st)
    ensures |EndBucket(spans, i)| <= |st.stack|
    ensures var closed := CloseN(st, |EndBucket(spans, i)|);
      HeldSince(text, spans, closed, i) && TextsMatch(text, spans, closed.texts)
      && closed.texts.Keys == closed.parent.Keys
  {
    var ids := IdsOf(st.stack);
    CloseShape(text, spans, i, ids);
    CloseNTexts(text, spans, st, |EndBucket(spans, i)|, i);
  }

  /** One offset of the sweep keeps the text invariant of laminar spans. */
  lemma StepTexts(text: string, spans: seq<Span>, shells: seq<Frame>, i: nat, st: Sweep)
    requires ShellsFor(spans, shells)
    requires WellFormed(text, spans) && i <= |text| && TopInv(st)
    requires NestInv(spans, i, st) && TextInv(text, spans, i, st)
    ensures |st.stack| >= |EndBucket(spans, i)|
    ensures TextInv(text, spans, i + 1, Step(text, spans, shells, i, st))
  {
    ClosePhaseTexts(text, spans, i, st);
    var closed := CloseN(st, |EndBucket(spans, i)|);
    OpenBucketHeld(text, spans, closed, shells, i);
    var pushed := OpenBucket(closed, spans, shells, i);
    BufferHeld(text, spans, pushed, i);
    assert Step(text, spans, shells, i, st) == Buffer(pushed, text, i);
  }
}

=== FILE: failed_link.dfy ===
/** A hyperlink span whose data does not convert to a link.

    `open` logs and returns without pushing anything for such a span, but the
    span is still in its end bucket, so `close` still pops at its end offset.
    It may first take the frame of some other span, but the pops then always
    outnumber the pushes: with one span fewer pushed than popped, some offset
    asks for more closes than there are open frames, `close` pops an empty
    stack there, and appending text to the popped value throws. Skipping the
    span was evidently meant to drop only its element; the corrected sweep
    below drops the span before bucketing, so its close is skipped too. */
module FailedLink {
  import opened Nodes
  import opened Serializer
  import opened Buckets
  import opened SweepSteps
  import opened SpanResolver

  /** Every span lies inside the text and is not empty. */
  predicate InRange(text: string, spans: seq<Span>) {
    forall k :: 0 <= k < |spans| ==> 0 <= spans[k].start < spans[k].end <= |text|
  }

  /** The spans `open` pushes, in registration order. */
  function Kept(spans: seq<Span>): (r: seq<Span>)
    ensures |r| <= |spans|
    ensures forall p :: 0 <= p < |r| ==> Opens(r[p]) && r[p] in spans
    decreases |spans|
  {
    if |spans| == 0 then []
    else
      var n := |spans| - 1;
      Kept(spans[..n]) + (if Opens(spans[n]) then [spans[n]] else [])
  }

  /** Every span that opens is kept as often as it occurs, and no other. */
  lemma {:induction false} KeptMultiset(spans: seq<Span>)
    ensures forall s :: multiset(Kept(spans))[s] == if Opens(s) then multiset(spans)[s] else 0
    decreases |spans|
  {
    if |spans| > 0 {
      var n := |spans| - 1;
      KeptMultiset(spans[..n]);
      assert spans[..n] + [spans[n]] == spans;
      assert multiset(spans) == multiset(spans[..n]) + multiset{spans[n]};
    }
  }

  /** Filtering keeps order: the spans kept from a concatenation are those
      kept from the first part followed by those kept from the second. With
      the one-span case this pins `Kept` down as the order-preserving filter. */
  lemma {:induction false} KeptAppend(a: seq<Span>, b: seq<Span>)
    ensures Kept(a + b) == Kept(a) + Kept(b)
    ensures |b| == 1 ==> Kept(b) == if Opens(b[0]) then b else []
    decreases |b|
  {
    if |b| == 1 {
      assert b[..0] == [];
    }
    if |b| > 0 {
      var n := |b| - 1;
      KeptAppend(a, b[..n]);
      assert (a + b)[..|a + b| - 1] == a + b[..n];
      assert (a + b)[|a + b| - 1] == b[n];
    } else {
      assert a + b == a;
    }
  }

  /** When every span opens, nothing is dropped. */
  lemma {:induction false} KeptAll(spans: seq<Span>)
    requires forall k :: 0 <= k < |spans| ==> Opens(spans[k])
    ensures Kept(spans) == spans
    decreases |spans|
  {
    if |spans| > 0 {
      var n := |spans| - 1;
      KeptAll(spans[..n]);
      assert spans[..n] + [spans[n]] == spans;
    }
  }

  /** Opening a bucket pushes at most one frame per span, and none for a
      span that does not open. */
  lemma {:induction false} OpenAllSize(st: Sweep, spans: seq<Span>, ks: seq<nat>, shells: seq<Frame>, k: nat)
    requires ShellsFor(spans, shells) && Indices(spans, ks)
    requires k < |spans| && !Opens(spans[k])
    ensures |OpenAll(st, spans, ks, shells).stack| + (if k in ks then 1 else 0) <= |st.stack| + |ks|
    decreases |ks|
  {
    if |ks| > 0 {
      var st' := Open(st, spans, ks[0], shells);
      assert |IdsOf(st'.stack)| == |st'.stack|;
      assert ks[0] == k ==> st' == st;
      var tail := ks[1..];
      assert ks == [ks[0]] + tail;
      OpenAllSize(st', spans, tail, shells, k);
    }
  }

  /** One offset as written removes the frames of its end bucket, pushes at
      most those of its start bucket, and none for the span that does not
      open when it starts here. */
  lemma StepSize(text: string, spans: seq<Span>, shells: seq<Frame>, i: nat, st: Sweep, k: nat)
    requires ShellsFor(spans, shells) && TopInv(st) && |st.stack| >= |EndBucket(spans, i)|
    requires k < |spans| && !Opens(spans[k])
    ensures |Step(text, spans, shells, i, st).stack| + (if spans[k].start == i then 1 else 0)
      <= |st.stack| - |EndBucket(spans, i)| + |StartBucket(spans, i)|
  {
    var closed := CloseN(st, |EndBucket(spans, i)|);
    var b := StartBucket(spans, i);
    if |b| > 0 {
      assert |IdsOf(Flush(closed).stack)| == |IdsOf(closed.stack)|;
      OpenAllSize(Flush(closed), spans, b, shells, k);
    }
  }

  /** Before offset i, with span `bad` not opening: the open frames, plus
      one for `bad` once it has started, are at most the spans started less
      those ended. */
  predicate Deficit(spans: seq<Span>, bad: nat, i: nat, st: Sweep) {
    bad < |spans| && !Opens(spans[bad])
    && |st.stack| + (if spans[bad].start < i then 1 else 0) <= NumStartBefore(spans, i) - NumEndBefore(spans, i)
  }

  /** One offset as written keeps the deficit. */
  lemma DeficitStep(text: string, spans: seq<Span>, shells: seq<Frame>, bad: nat, i: nat, st: Sweep)
    requires ShellsFor(spans, shells) && TopInv(st) && |st.stack| >= |EndBucket(spans, i)|
    requires Deficit(spans, bad, i, st)
    ensures Deficit(spans, bad, i + 1, Step(text, spans, shells, i, st))
  {
    StepSize(text, spans, shells, i, st, bad);
    StartCountStep(spans, i);
    EndCountStep(spans, i);
  }

  /** Where the sweep as written stands: still going, with its state, or
      stopped at the first offset whose end bucket has more spans than
      there are open frames. There `close` pops an empty stack, and
      appending text to the popped value throws. */
  datatype Outcome = Going(st: Sweep) | Underflow(offset: nat, frames: nat)

  /** Offset i as written: the closes fail when there are fewer open frames
      than spans ending here; otherwise the offset is the sweep's step. */
  function Advance(text: string, spans: seq<Span>, shells: seq<Frame>, i: nat, st: Sweep): (r: Outcome)
    requires ShellsFor(spans, shells) && TopInv(st)
    ensures r.Going? <==> |st.stack| >= |EndBucket(spans, i)|
    ensures r.Going? ==> TopInv(r.st) && r.st == Step(text, spans, shells, i, st)
    ensures r.Underflow? ==> r.offset == i && r.frames == |st.stack|
  {
    if |st.stack| < |EndBucket(spans, i)| then Underflow(i, |st.stack|)
    else Going(Step(text, spans, shells, i, st))
  }

  /** The sweep as written over offsets 0 to n - 1. An underflow is the
      first offset with too few frames, and nothing runs after it. */
  function RunTo(text: string, spans: seq<Span>, shells: seq<Frame>, n: nat): (r: Outcome)
    requires ShellsFor(spans, shells)
    ensures r.Going? ==> TopInv(r.st)
    ensures r.Underflow? ==> r.offset < n && r.frames < |EndBucket(spans, r.offset)|
    decreases n
  {
    if n == 0 then Going(Initial)
    else
      var prev := RunTo(text, spans, shells, n - 1);
      if prev.Underflow? then prev else Advance(text, spans, shells, n - 1, prev.st)
  }

  /** One more offset of the run as written. */
  lemma RunToNext(text: string, spans: seq<Span>, shells: seq<Frame>, n: nat)
    requires ShellsFor(spans, shells)
    ensures RunTo(text, spans, shells, n).Underflow? ==>
      RunTo(text, spans, shells, n + 1) == RunTo(text, spans, shells, n)
    ensures RunTo(text, spans, shells, n).Going? ==>
      RunTo(text, spans, shells, n + 1) == Advance(text, spans, shells, n, RunTo(text, spans, shells, n).st)
  {
  }

  /** The frame count before offset i: when every span opens, exactly the
      spans started less those ended; otherwise the deficit of `bad`. */
  predicate Balance(spans: seq<Span>, wf: bool, bad: nat, i: nat, st: Sweep) {
    if wf then |st.stack| == NumStartBefore(spans, i) - NumEndBefore(spans, i)
    else Deficit(spans, bad, i, st)
  }

  /** When every span opens there are always enough frames to close, and
      an offset with enough frames keeps the balance. */
  lemma BalanceStep(text: string, spans: seq<Span>, shells: seq<Frame>, wf: bool, bad: nat, i: nat, st: Sweep)
    requires ShellsFor(spans, shells) && InRange(text, spans) && wf == WellFormed(text, spans)
    requires TopInv(st) && Balance(spans, wf, bad, i, st)
    ensures wf ==> |st.stack| >= |EndBucket(spans, i)|
    ensures |st.stack| >= |EndBucket(spans, i)| ==>
      Balance(spans, wf, bad, i + 1, Step(text, spans, shells, i, st))
  {
    if wf {
      EndsWithinStarts(spans, i);
      EndCountStep(spans, i);
      StartCountStep(spans, i);
      var r := Step(text, spans, shells, i, st);
      assert |IdsOf(r.stack)| == |r.stack|;
    } else if |st.stack| >= |EndBucket(spans, i)| {
      DeficitStep(text, spans, shells, bad, i, st);
    }
  }

  /** While the run as written is going it keeps the balance, and when
      every span opens it keeps going. */
  lemma {:induction false} RunToBalance(text: string, spans: seq<Span>, shells: seq<Frame>,
                                         wf: bool, bad: nat, n: nat)
    requires ShellsFor(spans, shells) && InRange(text, spans) && wf == WellFormed(text, spans)
    requires Balance(spans, wf, bad, 0, Initial) && n <= |text| + 1
    ensures RunTo(text, spans, shells, n).Going? ==> Balance(spans, wf, bad, n, RunTo(text, spans, shells, n).st)
    ensures wf ==> RunTo(text, spans, shells, n).Going?
    decreases n
  {
    if n > 0 {
      var m := n - 1;
      RunToBalance(text, spans, shells, wf, bad, m);
      RunToNext(text, spans, shells, m);
      var prev := RunTo(text, spans, shells, m);
      if prev.Going? {
        BalanceStep(text, spans, shells, wf, bad, m, prev.st);
      }
    }
  }

  /** Past the last offset a balanced state has no open frames, and is
      possible only when every span opens. */
  lemma BalanceAtEnd(text: string, spans: seq<Span>, wf: bool, bad: nat, st: Sweep)
    requires InRange(text, spans) && Balance(spans, wf, bad, |text| + 1, st)
    ensures wf && st.stack == []
  {
    AllCounted(spans, |text|);
  }

  /** Past the last offset a run that is still going has closed every
      frame, and that happens exactly when every span opens. */
  lemma RunToEnd(text: string, spans: seq<Span>, shells: seq<Frame>, wf: bool, bad: nat)
    requires ShellsFor(spans, shells) && InRange(text, spans) && wf == WellFormed(text, spans)
    requires Balance(spans, wf, bad, 0, Initial)
    ensures RunTo(text, spans, shells, |text| + 1).Going? <==> wf
    ensures RunTo(text, spans, shells, |text| + 1).Going? ==> RunTo(text, spans, shells, |text| + 1).st.stack == []
  {
    RunToBalance(text, spans, shells, wf, bad, |text| + 1);
    var r := RunTo(text, spans, shells, |text| + 1);
    if r.Going? {
      BalanceAtEnd(text, spans, wf, bad, r.st);
    }
  }

  /** The code as written, on spans inside the text one of which does not
      open (a hyperlink whose data is not a link): the sweep reaches an
      offset whose end bucket asks for more closes than there are open
      frames, and throws there. */
  lemma FailedLinkUnderflow(text: string, spans: seq<Span>, shells: seq<Frame>, k: nat)
    requires ShellsFor(spans, shells) && InRange(text, spans)
    requires k < |spans| && !Opens(spans[k])
    ensures RunTo(text, spans, shells, |text| + 1).Underflow?
  {
    NoneBeforeZero(spans);
    RunToEnd(text, spans, shells, false, k);
  }

  /** When every span opens the run as written keeps the sweep invariant. */
  lemma {:induction false} RunToInv(text: string, spans: seq<Span>, shells: seq<Frame>, n: nat)
    requires ShellsFor(spans, shells) && WellFormed(text, spans) && n <= |text| + 1
    ensures RunTo(text, spans, shells, n).Going? && Inv(text, spans, n, RunTo(text, spans, shells, n).st)
    decreases n
  {
    if n == 0 {
      InitialInv(text, spans);
    } else {
      var m := n - 1;
      RunToInv(text, spans, shells, m);
      RunToNext(text, spans, shells, m);
      StepInv(text, spans, shells, m, RunTo(text, spans, shells, m).st);
    }
  }

  /** For spans inside the text, the sweep as written completes exactly
      when every span opens, and then it has closed every frame and holds
      the whole text. */
  lemma CompletesIff(text: string, spans: seq<Span>, shells: seq<Frame>)
    requires ShellsFor(spans, shells) && InRange(text, spans)
    ensures RunTo(text, spans, shells, |text| + 1).Going? <==>
      forall k :: 0 <= k < |spans| ==> Opens(spans[k])
    ensures var r := RunTo(text, spans, shells, |text| + 1);
      r.Going? ==> r.st.stack == [] && TextOfSeq(r.st.html) + r.st.content == text
  {
    if forall k :: 0 <= k < |spans| ==> Opens(spans[k]) {
      RunToInv(text, spans, shells, |text| + 1);
      FinalInv(text, spans, RunTo(text, spans, shells, |text| + 1).st);
    } else {
      var k :| 0 <= k < |spans| && !Opens(spans[k]);
      FailedLinkUnderflow(text, spans, shells, k);
    }
  }

  /** insertSpans with failed hyperlinks dropped before bucketing: their
      text stays where it was, and there is one element per span that opens. */
  method InsertSpansSkipping(text: string, spans: seq<Span>, resolve: string -> Option<string>)
    returns (c: Content)
    requires InRange(text, spans)
    ensures TextOfSeq(Children(c)) == text
    ensures NoImageSpans(spans) ==> ElementCountSeq(Children(c)) == |Kept(spans)|
  {
    var kept := Kept(spans);
    assert WellFormed(text, kept) by {
      forall p | 0 <= p < |kept|
        ensures 0 <= kept[p].start < kept[p].end <= |text| && Opens(kept[p])
      {
        var k :| 0 <= k < |spans| && spans[k] == kept[p];
      }
    }
    assert NoImageSpans(spans) ==> NoImageSpans(kept) by {
      if NoImageSpans(spans) {
        forall p | 0 <= p < |kept| ensures kept[p].kind != "image" {
          var k :| 0 <= k < |spans| && spans[k] == kept[p];
        }
      }
    }
    var placed, texts;
    c, placed, texts := InsertSpans(text, kept, resolve);
  }
}

=== FILE: grouper.dfy ===
/** The block pass of the serializer: it resolves image links and gathers
    consecutive list items of the same type into list groups.

    A `Group` is what the renderer walks: either a block on its own, or a
    list group `{type: "group-" + item type, blocks}` holding a run of
    "list-item" blocks (rendered as `ul`) or of "o-list-item" blocks
    (rendered as `ol`). */
module Grouper {
  import opened Nodes
  import opened Serializer

  datatype Group = Single(block: Block) | List(kind: string, blocks: seq<Block>)

  /** The two block types that are gathered into groups. */
  predicate IsListItem(b: Block) {
    b.kind == "list-item" || b.kind == "o-list-item"
  }

  /** The type of the group a list item belongs to. */
  function GroupType(itemKind: string): string {
    "group-" + itemKind
  }

  /** The image link step: an image block with a link target gets that
      target resolved into `linkUrl`; every other block is left alone. */
  function LinkImage(b: Block, resolve: string -> Option<string>): (r: Block)
    ensures r.(linkUrl := b.linkUrl) == b
    ensures r.kind == b.kind && r.text == b.text && r.spans == b.spans
    ensures b.kind == "image" && b.linkTo.Some? ==> r.linkUrl == resolve(b.linkTo.value)
    ensures !(b.kind == "image" && b.linkTo.Some?) ==> r == b
  {
    if b.kind == "image" && b.linkTo.Some? then b.(linkUrl := resolve(b.linkTo.value)) else b
  }

  /** The blocks after image link resolution. */
  function LinkAll(bs: seq<Block>, resolve: string -> Option<string>): (r: seq<Block>)
    ensures |r| == |bs|
    ensures forall p :: 0 <= p < |bs| ==> r[p] == LinkImage(bs[p], resolve)
  {
    seq(|bs|, p requires 0 <= p < |bs| => LinkImage(bs[p], resolve))
  }

  /** The blocks a group renders, in order. */
  function Members(g: Group): seq<Block> {
    match g
    case Single(b) => [b]
    case List(_, bs) => bs
  }

  /** All blocks of a sequence of groups, in order. */
  function Flatten(gs: seq<Group>): seq<Block>
    decreases |gs|
  {
    if |gs| == 0 then [] else Members(gs[0]) + Flatten(gs[1..])
  }

  /** A lone block is not a list item; a list group is a non-empty run of
      list items of one type, and its type is that item type's group type. */
  predicate ShapedGroup(g: Group) {
    match g
    case Single(b) => !IsListItem(b)
    case List(t, bs) =>
      |bs| > 0 && IsListItem(bs[0]) && t == GroupType(bs[0].kind)
      && forall p :: 0 <= p < |bs| ==> bs[p].kind == bs[0].kind
  }

  predicate Shaped(gs: seq<Group>) {
    forall p :: 0 <= p < |gs| ==> ShapedGroup(gs[p])
  }

  /** No two neighbouring list groups have the same type: a run is never split. */
  predicate Maximal(gs: seq<Group>) {
    forall p :: 0 <= p < |gs| - 1 ==>
      !(gs[p].List? && gs[p + 1].List? && gs[p].kind == gs[p + 1].kind)
  }

  /** gs is a grouping of bs: it holds the blocks in order, every group has
      its shape, and no run of list items is split. */
  predicate Grouping(bs: seq<Block>, gs: seq<Group>) {
    Flatten(gs) == bs && Shaped(gs) && Maximal(gs)
  }

  lemma {:induction false} FlattenAppend(a: seq<Group>, b: seq<Group>)
    ensures Flatten(a + b) == Flatten(a) + Flatten(b)
    decreases |a|
  {
    if |a| > 0 {
      FlattenAppend(a[1..], b);
      assert (a + b)[1..] == a[1..] + b;
    } else {
      assert a + b == b;
    }
  }

  /** Every shaped group holds at least one block, so a grouping has no more
      groups than blocks. */
  lemma {:induction false} FlattenLength(gs: seq<Group>)
    requires Shaped(gs)
    ensures |Flatten(gs)| >= |gs|
    decreases |gs|
  {
    if |gs| > 0 {
      assert ShapedGroup(gs[0]);
      FlattenLength(gs[1..]);
    }
  }

  /** The grouping loop: one pass over the blocks that resolves image links
      and keeps `open`, the type of the list group that is still accepting
      items (the last group pushed), if any. A list item joins the open
      group when the types match and starts a new group otherwise; any other
      block is pushed on its own and closes the open group. */
  method GroupBlocks(blocks: seq<Block>, resolve: string -> Option<string>) returns (groups: seq<Group>)
    ensures Grouping(LinkAll(blocks, resolve), groups)
    ensures |groups| <= |blocks|
  {
    groups := [];
    var open: Option<string> := None;
    var done: seq<Block> := [];
    var i := 0;
    while i < |blocks|
      invariant i <= |blocks|
      invariant |done| == i
      invariant forall p :: 0 <= p < i ==> done[p] == LinkImage(blocks[p], resolve)
      invariant Flatten(groups) == done
      invariant Shaped(groups) && Maximal(groups)
      invariant open.Some? ==> |groups| > 0 && groups[|groups| - 1].List? && groups[|groups| - 1].kind == open.value
      invariant |groups| > 0 && groups[|groups| - 1].List? ==> open == Some(groups[|groups| - 1].kind)
    {
      var b := LinkImage(blocks[i], resolve);
      FlattenAppend(groups, [Single(b)]);
      if !IsListItem(b) {
        PushGroup(groups, Single(b));
        groups := groups + [Single(b)];
        open := None;
      } else if open.None? || open.value != GroupType(b.kind) {
        PushGroup(groups, List(GroupType(b.kind), [b]));
        groups := groups + [List(GroupType(b.kind), [b])];
        open := Some(GroupType(b.kind));
      } else {
        JoinGroup(groups, b);
        groups := groups[..|groups| - 1] + [List(open.value, groups[|groups| - 1].blocks + [b])];
      }
      done := done + [b];
      i := i + 1;
    }
    FlattenLength(groups);
    assert done == LinkAll(blocks, resolve);
  }

  /** Pushing a shaped group after a grouping keeps it a grouping, unless it
      is a list group of the last group's type. */
  lemma PushGroup(gs: seq<Group>, g: Group)
    requires Shaped(gs) && Maximal(gs) && ShapedGroup(g)
    requires |gs| > 0 && gs[|gs| - 1].List? && g.List? ==> gs[|gs| - 1].kind != g.kind
    ensures Shaped(gs + [g]) && Maximal(gs + [g])
    ensures Flatten(gs + [g]) == Flatten(gs) + Members(g)
  {
    PushShape(gs, g);
    FlattenAppend(gs, [g]);
    FlattenOne(g);
  }

  lemma PushShape(gs: seq<Group>, g: Group)
    requires Shaped(gs) && Maximal(gs) && ShapedGroup(g)
    requires |gs| > 0 && gs[|gs| - 1].List? && g.List? ==> gs[|gs| - 1].kind != g.kind
    ensures Shaped(gs + [g]) && Maximal(gs + [g])
  {
    var gs' := gs + [g];
    forall p | 0 <= p < |gs'| ensures ShapedGroup(gs'[p]) {
      if p < |gs| { assert gs'[p] == gs[p]; }
    }
    forall p | 0 <= p < |gs'| - 1
      ensures !(gs'[p].List? && gs'[p + 1].List? && gs'[p].kind == gs'[p + 1].kind)
    {
      assert gs'[p] == gs[p];
      if p + 1 < |gs| { assert gs'[p + 1] == gs[p + 1]; }
    }
  }

  /** A single group flattens to its own blocks. */
  lemma FlattenOne(g: Group)
    ensures Flatten([g]) == Members(g)
  {
    assert [g][1..] == [];
  }

  /** Appending an item to the last group, a list group of the item's type,
      keeps a grouping a grouping. */
  lemma JoinGroup(gs: seq<Group>, b: Block)
    requires Shaped(gs) && Maximal(gs) && IsListItem(b)
    requires |gs| > 0 && gs[|gs| - 1].List? && gs[|gs| - 1].kind == GroupType(b.kind)
    ensures var gs' := gs[..|gs| - 1] + [List(gs[|gs| - 1].kind, gs[|gs| - 1].blocks + [b])];
      Shaped(gs') && Maximal(gs') && Flatten(gs') == Flatten(gs) + [b]
  {
    var n := |gs| - 1;
    var last := gs[n];
    var g := List(last.kind, last.blocks + [b]);
    assert ShapedGroup(last);
    assert GroupType(last.blocks[0].kind) == GroupType(b.kind);
    assert last.blocks[0].kind == b.kind by {
      assert ("group-" + last.blocks[0].kind)[6..] == last.blocks[0].kind;
      assert ("group-" + b.kind)[6..] == b.kind;
    }
    assert ShapedGroup(g);
    FlattenAppend(gs[..n], [g]);
    FlattenAppend(gs[..n], [last]);
    assert gs[..n] + [last] == gs;
    assert Flatten([g]) == Members(g) + Flatten([]);
    assert Flatten([last]) == Members(last) + Flatten([]);
  }

  /** The first block of a shaped, non-empty sequence of groups is the first
      member of its first group. */
  lemma FlattenHead(gs: seq<Group>)
    requires Shaped(gs) && |gs| > 0
    ensures |Flatten(gs)| >= |Members(gs[0])| > 0
    ensures Flatten(gs)[..|Members(gs[0])|] == Members(gs[0])
    ensures Flatten(gs)[|Members(gs[0])|..] == Flatten(gs[1..])
  {
    assert ShapedGroup(gs[0]);
  }

  /** The tail of a grouping is a grouping. */
  lemma GroupingTail(gs: seq<Group>)
    requires Shaped(gs) && Maximal(gs) && |gs| > 0
    ensures Shaped(gs[1..]) && Maximal(gs[1..])
  {
    forall p | 0 <= p < |gs[1..]| - 1
      ensures !(gs[1..][p].List? && gs[1..][p + 1].List? && gs[1..][p].kind == gs[1..][p + 1].kind)
    {
      assert gs[1..][p] == gs[p + 1] && gs[1..][p + 1] == gs[p + 2];
    }
  }

  /** A list group of a grouping takes the whole run of items of its type
      that begins with it: if the blocks go on past the group with an item of
      the same type, the grouping is broken. */
  lemma RunNotSplit(gs: seq<Group>)
    requires Shaped(gs) && Maximal(gs) && |gs| > 0 && gs[0].List?
    requires |Flatten(gs)| > |gs[0].blocks|
    ensures Flatten(gs)[|gs[0].blocks|].kind != gs[0].blocks[0].kind
  {
    FlattenHead(gs);
    var n := |gs[0].blocks|;
    var tail := gs[1..];
    assert |Flatten(tail)| > 0;
    assert |tail| > 0;
    assert tail == gs[1..] && tail[0] == gs[1];
    FlattenHead(tail);
    assert Flatten(gs)[n] == Flatten(tail)[0] == Members(gs[1])[0];
    assert ShapedGroup(gs[0]) && ShapedGroup(gs[1]);
    if Members(gs[1])[0].kind == gs[0].blocks[0].kind {
      assert false;
    }
  }

  /** There is only one grouping of a sequence of blocks: the three grouping
      properties pin the result down completely. */
  lemma {:induction false} GroupingUnique(bs: seq<Block>, g1: seq<Group>, g2: seq<Group>)
    requires Grouping(bs, g1) && Grouping(bs, g2)
    ensures g1 == g2
    decreases |bs|
  {
    if |g1| == 0 || |g2| == 0 {
      if |g1| > 0 { FlattenHead(g1); }
      if |g2| > 0 { FlattenHead(g2); }
    } else {
      FlattenHead(g1);
      FlattenHead(g2);
      GroupingTail(g1);
      GroupingTail(g2);
      var m1 := Members(g1[0]);
      var m2 := Members(g2[0]);
      assert ShapedGroup(g1[0]) && ShapedGroup(g2[0]);
      assert m1[0] == bs[0] == m2[0];
      if |m1| < |m2| {
        RunNotSplit(g1);
        assert false;
      } else if |m2| < |m1| {
        RunNotSplit(g2);
        assert false;
      }
      assert m1 == bs[..|m1|] == m2;
      assert g1[0] == g2[0];
      GroupingUnique(bs[|m1|..], g1[1..], g2[1..]);
      assert g1 == [g1[0]] + g1[1..];
      assert g2 == [g2[0]] + g2[1..];
    }
  }
}

=== FILE: nesting.dfy ===
/** Nesting of properly nested spans.

    When every two spans are either disjoint or one inside the other
    (`Laminar`), the sweep builds the tree the ranges describe: each span's
    element is attached to the element of the tightest span around it, or
    to the top level when no span is around it. "Around" is `Encloses`: a
    range that contains the other's and is opened before it at a shared
    offset (wider, or as wide and registered earlier). */
module Nesting {
  import opened Nodes
  import opened Serializer
  import opened Buckets
  import opened SweepSteps

  /** The range of span j contains the range of span k. */
  predicate Contains(spans: seq<Span>, j: nat, k: nat)
    requires j < |spans| && k < |spans|
  {
    spans[j].start <= spans[k].start && spans[k].end <= spans[j].end
  }

  /** Span j's element is an ancestor of span k's: its range contains k's and
      it is opened first. */
  predicate Encloses(spans: seq<Span>, j: nat, k: nat)
    requires j < |spans| && k < |spans|
  {
    Contains(spans, j, k) && Before(spans, j, k)
  }

  /** Every two ranges are disjoint or nested. */
  predicate Laminar(spans: seq<Span>) {
    forall j: nat, k: nat {:trigger Contains(spans, j, k)} :: j < |spans| && k < |spans| ==>
      spans[j].end <= spans[k].start || spans[k].end <= spans[j].start
      || Contains(spans, j, k) || Contains(spans, k, j)
  }

  predicate Outermost(spans: seq<Span>, k: nat)
    requires k < |spans|
  {
    forall j: nat :: j < |spans| ==> !Encloses(spans, j, k)
  }

  /** j encloses k and no span lies between them. */
  predicate ImmediateParent(spans: seq<Span>, j: nat, k: nat)
    requires j < |spans| && k < |spans|
  {
    Encloses(spans, j, k)
    && forall m: nat :: m < |spans| ==> !(Encloses(spans, j, m) && Encloses(spans, m, k))
  }

  /** Where span k's element belongs: inside its immediate parent's element,
      or at the top level when it is outermost. */
  predicate Placed(spans: seq<Span>, k: nat, dest: Option<nat>)
    requires k < |spans|
  {
    match dest
    case None => Outermost(spans, k)
    case Some(j) => j < |spans| && ImmediateParent(spans, j, k)
  }

  /** Span k's element was recorded where it belongs. */
  ghost predicate PlacedIn(spans: seq<Span>, parent: map<nat, Option<nat>>, k: nat) {
    k in parent && k < |spans| && Placed(spans, k, parent[k])
  }

  /** Every element closed so far went where it belongs. */
  ghost predicate ParentsOK(spans: seq<Span>, parent: map<nat, Option<nat>>) {
    forall k {:trigger PlacedIn(spans, parent, k)} :: k in parent ==> PlacedIn(spans, parent, k)
  }

  /** Each frame's span encloses the spans of every frame above it. */
  predicate Chain(spans: seq<Span>, ids: seq<nat>) {
    Indices(spans, ids)
    && forall p, q {:trigger Encloses(spans, ids[p], ids[q])} :: 0 <= p < q < |ids| ==> Encloses(spans, ids[p], ids[q])
  }

  /** Span k has started before offset i and not yet closed at its head. */
  predicate Live(spans: seq<Span>, k: nat, i: int) {
    k < |spans| && spans[k].start < i <= spans[k].end
  }

  /** Every span enclosing k has its frame among ids. */
  predicate EnclosersIn(spans: seq<Span>, k: nat, ids: seq<nat>)
    requires k < |spans|
  {
    forall j: nat :: j < |spans| && Encloses(spans, j, k) ==> j in ids
  }

  /** The frames are exactly the spans live at the head of offset i. */
  ghost predicate LiveFrames(spans: seq<Span>, i: int, ids: seq<nat>) {
    forall k: nat :: k in ids <==> Live(spans, k, i)
  }

  /** The nesting invariant at the head of offset i, on the frames' spans and
      the record of closed elements: the frames are exactly the live spans,
      in enclosing order, and every closed element was placed correctly. */
  ghost predicate NestState(spans: seq<Span>, i: int, ids: seq<nat>, parent: map<nat, Option<nat>>) {
    Chain(spans, ids) && LiveFrames(spans, i, ids) && ParentsOK(spans, parent)
  }

  ghost predicate NestInv(spans: seq<Span>, i: int, st: Sweep) {
    NestState(spans, i, IdsOf(st.stack), st.parent)
  }

  /** Two spans enclosing the same non-empty span are themselves nested. */
  lemma EnclosersNested(text: string, spans: seq<Span>, a: nat, b: nat, k: nat)
    requires WellFormed(text, spans) && Laminar(spans)
    requires a < |spans| && b < |spans| && k < |spans| && a != b
    requires Encloses(spans, a, k) && Encloses(spans, b, k)
    ensures Encloses(spans, a, b) || Encloses(spans, b, a)
  {
    assert Contains(spans, a, b) || Contains(spans, b, a);
  }

  /** A span has at most one immediate parent. */
  lemma ImmediateParentUnique(text: string, spans: seq<Span>, a: nat, b: nat, k: nat)
    requires WellFormed(text, spans) && Laminar(spans)
    requires a < |spans| && b < |spans| && k < |spans|
    requires ImmediateParent(spans, a, k) && ImmediateParent(spans, b, k)
    ensures a == b
  {
    if a != b {
      EnclosersNested(text, spans, a, b, k);
    }
  }

  // ---------------------------------------------------------------------
  // Placing the top frame.

  /** The chain relation between two given frames. */
  lemma ChainOrder(spans: seq<Span>, ids: seq<nat>, p: nat, q: nat)
    requires Chain(spans, ids) && p < q < |ids|
    ensures Encloses(spans, ids[p], ids[q])
  {
  }

  /** A frame's enclosers, when all on the stack, are all below it. */
  lemma EnclosersBelow(spans: seq<Span>, ids: seq<nat>, p: nat)
    requires Chain(spans, ids) && p < |ids|
    requires EnclosersIn(spans, ids[p], ids)
    ensures EnclosersIn(spans, ids[p], ids[..p])
  {
    forall j: nat | j < |spans| && Encloses(spans, j, ids[p]) ensures j in ids[..p] {
      var q :| 0 <= q < |ids| && ids[q] == j;
      if q > p {
        ChainOrder(spans, ids, p, q);
      }
      assert ids[..p][q] == j;
    }
  }

  /** The frame below a frame whose enclosers all lie below it is its
      immediate parent; with no frame below it, it is outermost. */
  lemma ChainPlaced(spans: seq<Span>, ids: seq<nat>, pos: nat)
    requires Chain(spans, ids) && pos < |ids|
    requires EnclosersIn(spans, ids[pos], ids[..pos])
    ensures Placed(spans, ids[pos], if pos == 0 then None else Some(ids[pos - 1]))
  {
    var k := ids[pos];
    if pos > 0 {
      var d := ids[pos - 1];
      ChainOrder(spans, ids, pos - 1, pos);
      forall m: nat | m < |spans| && Encloses(spans, d, m) ensures !Encloses(spans, m, k) {
        if Encloses(spans, m, k) {
          var px :| 0 <= px < pos && ids[..pos][px] == m;
          if px < pos - 1 {
            ChainOrder(spans, ids, px, pos - 1);
          }
        }
      }
    }
  }

  /** `close` records the frame below the popped one, or the top level. */
  lemma CloseParent(st: Sweep)
    requires |st.stack| > 0 && TopInv(st)
    ensures var ids := IdsOf(st.stack);
      var n := |ids| - 1;
      Close(st).parent == st.parent[ids[n] := if n == 0 then None else Some(ids[n - 1])]
  {
  }

  /** A prefix of a chain is a chain. */
  lemma ChainPrefix(spans: seq<Span>, ids: seq<nat>, n: nat)
    requires Chain(spans, ids) && n <= |ids|
    ensures Chain(spans, ids[..n])
  {
    var pre := ids[..n];
    forall p, q | 0 <= p < q < |pre| ensures Encloses(spans, pre[p], pre[q]) {
      ChainOrder(spans, ids, p, q);
    }
  }

  /** Recording a correct destination for one more element keeps the record correct. */
  lemma ParentsOKUpdate(spans: seq<Span>, parent: map<nat, Option<nat>>, k: nat, dest: Option<nat>)
    requires ParentsOK(spans, parent) && k < |spans| && Placed(spans, k, dest)
    ensures ParentsOK(spans, parent[k := dest])
  {
    var parent' := parent[k := dest];
    forall x | x in parent' ensures PlacedIn(spans, parent', x) {
      if x != k {
        assert PlacedIn(spans, parent, x);
      }
    }
  }

  /** After popping the top frame, the frames from s - n up to the new top
      still have all their enclosers on the stack. */
  lemma EnclosersAfterPop(spans: seq<Span>, ids: seq<nat>, n: nat)
    requires Chain(spans, ids) && 0 < n <= |ids|
    requires forall p :: |ids| - n <= p < |ids| ==> EnclosersIn(spans, ids[p], ids)
    ensures var ids' := ids[..|ids| - 1];
      forall p :: |ids'| - (n - 1) <= p < |ids'| ==> EnclosersIn(spans, ids'[p], ids')
  {
    var s := |ids|;
    var ids' := ids[..s - 1];
    forall p | s - n <= p < s - 1 ensures EnclosersIn(spans, ids'[p], ids') {
      EnclosersBelow(spans, ids, p);
      forall j: nat | j < |spans| && Encloses(spans, j, ids[p]) ensures j in ids' {
        var q :| 0 <= q < p && ids[..p][q] == j;
        assert ids'[q] == j;
      }
    }
  }

  /** One close on such a chain places the popped element correctly and
      leaves the remaining n - 1 frames with their enclosers on the stack. */
  lemma CloseOneNest(spans: seq<Span>, st: Sweep, n: nat)
    requires TopInv(st) && 0 < n <= |st.stack|
    requires Chain(spans, IdsOf(st.stack)) && ParentsOK(spans, st.parent)
    requires forall p :: |st.stack| - n <= p < |st.stack| ==> EnclosersIn(spans, IdsOf(st.stack)[p], IdsOf(st.stack))
    ensures var r := Close(st);
      Chain(spans, IdsOf(r.stack)) && ParentsOK(spans, r.parent)
      && forall p :: |r.stack| - (n - 1) <= p < |r.stack| ==> EnclosersIn(spans, IdsOf(r.stack)[p], IdsOf(r.stack))
  {
    var ids := IdsOf(st.stack);
    var s := |ids|;
    EnclosersBelow(spans, ids, s - 1);
    ChainPlaced(spans, ids, s - 1);
    CloseParent(st);
    ParentsOKUpdate(spans, st.parent, ids[s - 1], if s - 1 == 0 then None else Some(ids[s - 2]));
    ChainPrefix(spans, ids, s - 1);
    EnclosersAfterPop(spans, ids, n);
  }

  /** n closes on a chain whose top n frames have their enclosers on the
      stack place each popped element correctly and leave the bottom frames. */
  lemma {:induction false} CloseNNest(spans: seq<Span>, st: Sweep, n: nat)
    requires TopInv(st) && n <= |st.stack|
    requires Chain(spans, IdsOf(st.stack)) && ParentsOK(spans, st.parent)
    requires forall p :: |st.stack| - n <= p < |st.stack| ==> EnclosersIn(spans, IdsOf(st.stack)[p], IdsOf(st.stack))
    ensures ParentsOK(spans, CloseN(st, n).parent)
    decreases n
  {
    if n > 0 {
      CloseOneNest(spans, st, n);
      CloseNNest(spans, Close(st), n - 1);
    }
  }

  // ---------------------------------------------------------------------
  // The close phase pops exactly the frames of spans ending here.

  /** The spans whose range ends at offset i. */
  function EndSet(spans: seq<Span>, i: int): set<nat> {
    set k: nat | k < |spans| && spans[k].end == i
  }

  predicate Distinct(xs: seq<nat>) {
    forall p, q :: 0 <= p < q < |xs| ==> xs[p] != xs[q]
  }

  /** A list without repeats has as many elements as its set. */
  lemma {:induction false} DistinctCard(xs: seq<nat>)
    requires Distinct(xs)
    ensures |ElemSet(xs)| == |xs|
    decreases |xs|
  {
    if |xs| > 0 {
      var n := |xs| - 1;
      var pre := xs[..n];
      assert Distinct(pre);
      DistinctCard(pre);
      assert xs == pre + [xs[n]];
      assert ElemSet(xs) == ElemSet(pre) + {xs[n]};
      assert xs[n] !in ElemSet(pre);
    }
  }

  /** The end bucket of offset i holds each span ending there once. */
  lemma EndBucketCard(spans: seq<Span>, i: int)
    ensures |EndBucket(spans, i)| == |EndSet(spans, i)|
  {
    var e := EndBucket(spans, i);
    assert ElemSet(e) == EndSet(spans, i);
    DistinctCard(e);
  }

  /** The number of frames at the top of the stack whose span ends at i. */
  function EndRun(spans: seq<Span>, ids: seq<nat>, i: int): (t: nat)
    requires Indices(spans, ids)
    ensures t <= |ids|
    decreases |ids|
  {
    if |ids| == 0 || spans[ids[|ids| - 1]].end != i then 0
    else 1 + EndRun(spans, ids[..|ids| - 1], i)
  }

  /** On a chain of spans all reaching offset i, the frames ending at i are
      the top EndRun frames, and all below them reach past i. */
  lemma {:induction false} EndRunShape(spans: seq<Span>, ids: seq<nat>, i: int)
    requires Chain(spans, ids)
    requires forall p :: 0 <= p < |ids| ==> spans[ids[p]].end >= i
    ensures var t := EndRun(spans, ids, i);
      (forall p :: |ids| - t <= p < |ids| ==> spans[ids[p]].end == i)
      && (forall p :: 0 <= p < |ids| - t ==> spans[ids[p]].end > i)
    decreases |ids|
  {
    if |ids| > 0 {
      var n := |ids| - 1;
      var pre := ids[..n];
      if spans[ids[n]].end == i {
        assert Chain(spans, pre);
        EndRunShape(spans, pre, i);
      } else {
        forall p | 0 <= p < n ensures spans[ids[p]].end > i {
          assert Encloses(spans, ids[p], ids[n]);
        }
      }
    }
  }

  /** At the head of offset i the frames of the spans ending at i are
      exactly the top |EndBucket(i)| frames. */
  lemma CloseShape(text: string, spans: seq<Span>, i: int, ids: seq<nat>)
    requires WellFormed(text, spans) && Chain(spans, ids) && LiveFrames(spans, i, ids)
    ensures var m := |EndBucket(spans, i)|;
      m <= |ids|
      && (forall p :: |ids| - m <= p < |ids| ==> spans[ids[p]].end == i)
      && (forall p :: 0 <= p < |ids| - m ==> spans[ids[p]].end > i)
  {
    var s := |ids|;
    forall p | 0 <= p < s ensures spans[ids[p]].end >= i {
      assert ids[p] in ids;
    }
    EndRunShape(spans, ids, i);
    var t := EndRun(spans, ids, i);
    var top := ids[s - t..];
    forall k: nat ensures k in ElemSet(top) <==> k in EndSet(spans, i) {
      if k in EndSet(spans, i) {
        assert Live(spans, k, i);
        var p :| 0 <= p < s && ids[p] == k;
        assert top[p - (s - t)] == k;
      }
      if k in ElemSet(top) {
        var p :| 0 <= p < |top| && top[p] == k;
        assert ids[p + (s - t)] == k;
      }
    }
    assert ElemSet(top) == EndSet(spans, i);
    forall p, q | 0 <= p < q < |top| ensures top[p] != top[q] {
      assert Encloses(spans, ids[p + (s - t)], ids[q + (s - t)]);
    }
    DistinctCard(top);
    EndBucketCard(spans, i);
  }

  /** After the closes of offset i the frames are the spans live across i,
      in enclosing order, and every element closed so far is placed. */
  lemma ClosePhaseNest(text: string, spans: seq<Span>, i: int, st: Sweep)
    requires WellFormed(text, spans) && TopInv(st) && NestInv(spans, i, st)
    ensures |EndBucket(spans, i)| <= |st.stack|
    ensures var r := CloseN(st, |EndBucket(spans, i)|);
      Chain(spans, IdsOf(r.stack))
      && (forall k: nat :: k in IdsOf(r.stack) <==> Live(spans, k, i) && spans[k].end != i)
      && ParentsOK(spans, r.parent)
  {
    var ids := IdsOf(st.stack);
    var s := |ids|;
    var m := |EndBucket(spans, i)|;
    CloseShape(text, spans, i, ids);
    forall p | s - m <= p < s ensures EnclosersIn(spans, ids[p], ids) {
      forall j: nat | j < |spans| && Encloses(spans, j, ids[p]) ensures j in ids {
        assert ids[p] in ids;
        assert Live(spans, j, i);
      }
    }
    CloseNNest(spans, st, m);
    var rest := ids[..s - m];
    forall k: nat ensures k in rest <==> Live(spans, k, i) && spans[k].end != i {
      if k in rest {
        var p :| 0 <= p < |rest| && rest[p] == k;
        assert ids[p] == k && ids[p] in ids;
      }
      if Live(spans, k, i) && spans[k].end != i {
        var p :| 0 <= p < s && ids[p] == k;
        assert rest[p] == k;
      }
    }
    assert Chain(spans, rest) by {
      forall p, q | 0 <= p < q < |rest| ensures Encloses(spans, rest[p], rest[q]) {
        assert rest[p] == ids[p] && rest[q] == ids[q];
      }
    }
  }

  // ---------------------------------------------------------------------
  // The open phase pushes the start bucket on top of the live spans.

  /** Spans live across offset i, followed by the start bucket of i, form a
      chain when the spans are laminar. */
  lemma ChainExtend(spans: seq<Span>, i: int, rest: seq<nat>, b: seq<nat>)
    requires Laminar(spans)
    requires Chain(spans, rest) && (forall p :: 0 <= p < |rest| ==> spans[rest[p]].start < i < spans[rest[p]].end)
    requires Indices(spans, b) && OpenOrder(spans, b)
    requires forall p :: 0 <= p < |b| ==> spans[b[p]].start == i < spans[b[p]].end
    ensures Chain(spans, rest + b)
  {
    var ids := rest + b;
    var r := |rest|;
    forall p, q | 0 <= p < q < |ids| ensures Encloses(spans, ids[p], ids[q]) {
      if q < r {
        assert ids[p] == rest[p] && ids[q] == rest[q];
      } else if p < r {
        var x := rest[p];
        var y := b[q - r];
        assert ids[p] == x && ids[q] == y;
        assert Contains(spans, x, y) || Contains(spans, y, x);
      } else {
        assert ids[p] == b[p - r] && ids[q] == b[q - r];
        assert Before(spans, b[p - r], b[q - r]);
      }
    }
  }

  /** The spans live across offset i, followed by the start bucket of i, are
      exactly the spans live at the head of offset i + 1. */
  lemma LiveExtend(text: string, spans: seq<Span>, i: int, rest: seq<nat>, b: seq<nat>)
    requires WellFormed(text, spans)
    requires forall k: nat :: k in rest <==> Live(spans, k, i) && spans[k].end != i
    requires forall p :: 0 <= p < |b| ==> b[p] < |spans| && spans[b[p]].start == i
    requires forall k :: 0 <= k < |spans| && spans[k].start == i ==> k in b
    ensures LiveFrames(spans, i + 1, rest + b)
  {
    forall k: nat ensures k in rest + b <==> Live(spans, k, i + 1) {
      if k in b {
        var p :| 0 <= p < |b| && b[p] == k;
      }
    }
  }

  /** Pushing the start bucket of offset i on the spans live across i gives
      the nesting invariant at offset i + 1. */
  lemma OpenNest(text: string, spans: seq<Span>, i: int, rest: seq<nat>, parent: map<nat, Option<nat>>)
    requires WellFormed(text, spans) && Laminar(spans)
    requires Chain(spans, rest) && ParentsOK(spans, parent)
    requires forall k: nat :: k in rest <==> Live(spans, k, i) && spans[k].end != i
    ensures NestState(spans, i + 1, rest + StartBucket(spans, i), parent)
  {
    var b := StartBucket(spans, i);
    forall p | 0 <= p < |rest| ensures spans[rest[p]].start < i < spans[rest[p]].end {
      assert rest[p] in rest;
    }
    ChainExtend(spans, i, rest, b);
    LiveExtend(text, spans, i, rest, b);
  }

  // ---------------------------------------------------------------------
  // The whole sweep.

  /** One offset of the sweep keeps the nesting invariant of laminar spans. */
  lemma StepNest(text: string, spans: seq<Span>, shells: seq<Frame>, i: nat, st: Sweep)
    requires ShellsFor(spans, shells)
    requires WellFormed(text, spans) && i <= |text| && Inv(text, spans, i, st)
    ensures |st.stack| >= |EndBucket(spans, i)|
    ensures Laminar(spans) && NestInv(spans, i, st) ==> NestInv(spans, i + 1, Step(text, spans, shells, i, st))
  {
    StepInv(text, spans, shells, i, st);
    if Laminar(spans) && NestInv(spans, i, st) {
      ClosePhaseNest(text, spans, i, st);
      var closed := CloseN(st, |EndBucket(spans, i)|);
      OpenNest(text, spans, i, IdsOf(closed.stack), closed.parent);
      StepShape(text, spans, shells, i, st);
    }
  }
}

=== FILE: nodes.dfy ===
/** The rendered-node tree the renderer builds, and the two measures the
    proofs use on it: the text a tree carries and the number of elements in it.

    The DOM primitive of the original (`bel`'s `createElement` and
    `document.createTextNode`) is replaced by plain values: an element is its
    tag, its attribute map and its ordered children. */
module Nodes {

  datatype Option<+T> = None | Some(value: T)

  /** JavaScript truthiness of an optional string: present and non-empty. */
  predicate Truthy(o: Option<string>) {
    o.Some? && o.value != ""
  }

  /** A rendered node. `Raw` is pre-trusted markup that is never escaped (the
      embed payload); `Comment` is an HTML comment. */
  datatype Node =
    | Element(tag: string, attrs: map<string, string>, children: seq<Node>)
    | Text(text: string)
    | Raw(markup: string)
    | Comment(note: string)

  /** The `content` argument asElement receives: nothing, a string, a single
      node, or an array of nodes. */
  datatype Content = Absent | Str(s: string) | One(node: Node) | Many(nodes: seq<Node>)

  /** How a `content` value becomes a child list: a string becomes one text
      node, a single node a one-element list, an array stays as it is, and an
      absent value adds nothing. */
  function Children(c: Content): (r: seq<Node>)
    ensures c.Absent? ==> r == []
    ensures c.Str? ==> r == [Text(c.s)]
    ensures c.One? ==> r == [c.node]
    ensures c.Many? ==> r == c.nodes
    ensures TextOfSeq(r) ==
      match c
      case Absent => ""
      case Str(s) => s
      case One(n) => TextOf(n)
      case Many(ns) => TextOfSeq(ns)
    ensures ElementCountSeq(r) ==
      match c
      case One(n) => ElementCount(n)
      case Many(ns) => ElementCountSeq(ns)
      case _ => 0
  {
    match c
    case Absent => []
    case Str(s) => SingleNode(Text(s)); [Text(s)]
    case One(n) => SingleNode(n); [n]
    case Many(ns) => ns
  }

  /** The in-order concatenation of the text leaves of a tree. Raw markup and
      comments carry no text. */
  function TextOf(n: Node): string
    decreases n
  {
    match n
    case Element(_, _, kids) => TextOfSeq(kids)
    case Text(s) => s
    case Raw(_) => ""
    case Comment(_) => ""
  }

  function TextOfSeq(ns: seq<Node>): string
    decreases ns
  {
    if |ns| == 0 then "" else TextOfSeq(ns[..|ns| - 1]) + TextOf(ns[|ns| - 1])
  }

  /** The number of element nodes in a tree. */
  function ElementCount(n: Node): nat
    decreases n
  {
    match n
    case Element(_, _, kids) => 1 + ElementCountSeq(kids)
    case _ => 0
  }

  function ElementCountSeq(ns: seq<Node>): nat
    decreases ns
  {
    if |ns| == 0 then 0 else ElementCountSeq(ns[..|ns| - 1]) + ElementCount(ns[|ns| - 1])
  }

  /** Text of a forest splits over concatenation. */
  lemma {:induction false} TextOfSeqAppend(a: seq<Node>, b: seq<Node>)
    ensures TextOfSeq(a + b) == TextOfSeq(a) + TextOfSeq(b)
    decreases |b|
  {
    if |b| == 0 {
      assert a + b == a;
    } else {
      var b' := b[..|b| - 1];
      assert (a + b)[..|a + b| - 1] == a + b';
      assert (a + b)[|a + b| - 1] == b[|b| - 1];
      TextOfSeqAppend(a, b');
    }
  }

  /** Element count of a forest splits over concatenation. */
  lemma {:induction false} ElementCountSeqAppend(a: seq<Node>, b: seq<Node>)
    ensures ElementCountSeq(a + b) == ElementCountSeq(a) + ElementCountSeq(b)
    decreases |b|
  {
    if |b| == 0 {
      assert a + b == a;
    } else {
      var b' := b[..|b| - 1];
      assert (a + b)[..|a + b| - 1] == a + b';
      ElementCountSeqAppend(a, b');
    }
  }

  /** A one-node forest has that node's text and elements. */
  lemma SingleNode(n: Node)
    ensures TextOfSeq([n]) == TextOf(n)
    ensures ElementCountSeq([n]) == ElementCount(n)
  {
    assert [n][..0] == [];
  }
}

=== FILE: render.dfy ===
/** StructuredText.asElement: group the blocks, then build one element per
    group. A list group's element holds one `li` element per item; every
    other block's element holds the inline forest insertSpans builds from
    its text and spans. */
module Render {
  import opened Nodes
  import opened Serializer
  import opened SweepSteps
  import opened Grouper
  import opened FailedLink

  /** The texts of a sequence of blocks, one after another. */
  function Texts(bs: seq<Block>): string
    decreases |bs|
  {
    if |bs| == 0 then "" else Texts(bs[..|bs| - 1]) + bs[|bs| - 1].text
  }

  /** Every block's spans lie within its text and are not empty. */
  predicate AllInRange(bs: seq<Block>) {
    forall b :: b in bs ==> InRange(b.text, b.spans)
  }

  /** No image or embed block: the two block types whose element drops the
      block's text. */
  predicate NoMedia(bs: seq<Block>) {
    forall b :: b in bs ==> b.kind != "image" && b.kind != "embed"
  }

  lemma {:induction false} TextsAppend(a: seq<Block>, b: seq<Block>)
    ensures Texts(a + b) == Texts(a) + Texts(b)
    decreases |b|
  {
    if |b| == 0 {
      assert a + b == a;
    } else {
      var b' := b[..|b| - 1];
      assert (a + b)[..|a + b| - 1] == a + b';
      TextsAppend(a, b');
    }
  }

  /** Link resolution changes no block's text, type or spans. */
  lemma {:induction false} LinkAllKeeps(bs: seq<Block>, resolve: string -> Option<string>)
    ensures Texts(LinkAll(bs, resolve)) == Texts(bs)
    ensures AllInRange(bs) ==> AllInRange(LinkAll(bs, resolve))
    ensures NoMedia(bs) ==> NoMedia(LinkAll(bs, resolve))
    decreases |bs|
  {
    var ls := LinkAll(bs, resolve);
    forall b | b in ls ensures exists p :: 0 <= p < |bs| && b == LinkImage(bs[p], resolve) {
      var p :| 0 <= p < |ls| && ls[p] == b;
    }
    if |bs| > 0 {
      var n := |bs| - 1;
      LinkAllKeeps(bs[..n], resolve);
      assert ls[..n] == LinkAll(bs[..n], resolve);
    }
  }

  /** A group's blocks are among the blocks of the whole sequence. */
  lemma {:induction false} MembersIn(gs: seq<Group>, j: nat)
    requires j < |gs|
    ensures forall b :: b in Members(gs[j]) ==> b in Flatten(gs)
    decreases j
  {
    if j > 0 {
      MembersIn(gs[1..], j - 1);
    }
  }

  /** What holds of every block holds of each group's blocks. */
  lemma GroupBlocksFrom(gs: seq<Group>, j: nat)
    requires j < |gs|
    ensures AllInRange(Flatten(gs)) ==> AllInRange(Members(gs[j]))
    ensures NoMedia(Flatten(gs)) ==> NoMedia(Members(gs[j]))
  {
    MembersIn(gs, j);
  }

  /** The texts of the first j + 1 groups' blocks extend those of the first j. */
  lemma TextsStep(gs: seq<Group>, j: nat)
    requires j < |gs|
    ensures Texts(Flatten(gs[..j + 1])) == Texts(Flatten(gs[..j])) + Texts(Members(gs[j]))
  {
    var one := [gs[j]];
    FlattenAppend(gs[..j], one);
    assert gs[..j + 1] == gs[..j] + one;
    assert one[1..] == [];
    assert Flatten(one) == Members(gs[j]) + Flatten([]) == Members(gs[j]);
    TextsAppend(Flatten(gs[..j]), Members(gs[j]));
  }

  /** Appending the next group's element extends the rendered text by that
      group's text. */
  lemma RenderTextStep(gs: seq<Group>, j: nat, nodes: seq<Node>, n: Node)
    requires j < |gs|
    requires TextOfSeq(nodes) == Texts(Flatten(gs[..j])) && TextOf(n) == Texts(Members(gs[j]))
    ensures TextOfSeq(nodes + [n]) == Texts(Flatten(gs[..j + 1]))
  {
    TextsStep(gs, j);
    assert (nodes + [n])[..|nodes|] == nodes;
  }

  /** The item tag of both list item types, and the list tag of both group types. */
  lemma ListTags(b: Block)
    requires IsListItem(b)
    ensures b.kind in TagNames && TagNames[b.kind] == "li"
    ensures var t := GroupType(b.kind);
      t in TagNames && TagNames[t] == (if t == "group-list-item" then "ul" else "ol")
  {
    if b.kind == "list-item" {
      assert GroupType(b.kind) == "group-list-item";
    } else {
      assert GroupType(b.kind) == "group-o-list-item";
    }
  }

  /** The element of one block: asElement over insertSpans of its text
      (with hyperlinks that fail to convert dropped). Every type but image
      and embed keeps the text, and one element is added per opening span
      on top of the block's own. */
  method BlockElement(b: Block, resolve: string -> Option<string>) returns (n: Node)
    requires InRange(b.text, b.spans)
    ensures n.Element?
    ensures b.kind in TagNames ==> n.tag == TagNames[b.kind]
    ensures b.kind != "image" && b.kind != "embed" ==> TextOf(n) == b.text
    ensures b.kind != "image" && b.kind != "embed" && NoImageSpans(b.spans) ==>
      ElementCount(n) == 1 + |Kept(b.spans)|
  {
    var c := InsertSpansSkipping(b.text, b.spans, resolve);
    n := AsElement(BlockOf(b), c);
    ContentPreserved(BlockOf(b), c);
  }

  /** blockContent then asElement on one group. A list group becomes a `ul`
      (unordered items) or `ol` (ordered items) with one `li` per item. */
  method GroupElement(g: Group, resolve: string -> Option<string>) returns (n: Node)
    requires ShapedGroup(g) && AllInRange(Members(g))
    ensures n.Element?
    ensures g.List? ==>
      n.tag == (if g.kind == "group-list-item" then "ul" else "ol")
      && |n.children| == |g.blocks|
      && forall p :: 0 <= p < |g.blocks| ==> n.children[p].Element? && n.children[p].tag == "li"
    ensures NoMedia(Members(g)) ==> TextOf(n) == Texts(Members(g))
  {
    match g
    case Single(b) =>
      assert b in Members(g);
      n := BlockElement(b, resolve);
      assert [b][..0] == [];
    case List(t, bs) =>
      var items: seq<Node> := [];
      var j := 0;
      while j < |bs|
        invariant j <= |bs| && |items| == j
        invariant forall p :: 0 <= p < j ==> items[p].Element? && items[p].tag == "li"
        invariant NoMedia(bs) ==> TextOfSeq(items) == Texts(bs[..j])
      {
        assert bs[j] in bs && bs[j].kind == bs[0].kind;
        ListTags(bs[j]);
        var item := BlockElement(bs[j], resolve);
        assert bs[..j + 1][..j] == bs[..j];
        assert (items + [item])[..j] == items;
        items := items + [item];
        j := j + 1;
      }
      assert bs[..j] == bs;
      ListTags(bs[0]);
      n := AsElement(GroupOf(t), Many(items));
      ContentPreserved(GroupOf(t), Many(items));
  }

  /** `groups.map(group => asElement(group, blockContent(group)))`: one
      element per group, in order, carrying the groups' text. */
  method RenderGroups(groups: seq<Group>, resolve: string -> Option<string>) returns (nodes: seq<Node>)
    requires Shaped(groups) && AllInRange(Flatten(groups))
    ensures |nodes| == |groups|
    ensures forall p :: 0 <= p < |groups| ==>
      nodes[p].Element? && (groups[p].List? ==> |nodes[p].children| == |groups[p].blocks|)
    ensures NoMedia(Flatten(groups)) ==> TextOfSeq(nodes) == Texts(Flatten(groups))
  {
    nodes := [];
    var j := 0;
    while j < |groups|
      invariant j <= |groups| && |nodes| == j
      invariant forall p :: 0 <= p < j ==>
        nodes[p].Element? && (groups[p].List? ==> |nodes[p].children| == |groups[p].blocks|)
      invariant NoMedia(Flatten(groups)) ==> TextOfSeq(nodes) == Texts(Flatten(groups[..j]))
    {
      GroupBlocksFrom(groups, j);
      var n := GroupElement(groups[j], resolve);
      if NoMedia(Flatten(groups)) {
        RenderTextStep(groups, j, nodes, n);
      }
      nodes := nodes + [n];
      j := j + 1;
    }
    assert groups[..j] == groups;
  }

  /** StructuredText.asElement: group the blocks, then one element per
      group, in order. Grouping and rendering lose no text when no block is
      an image or an embed. */
  method Render(blocks: seq<Block>, resolve: string -> Option<string>) returns (groups: seq<Group>, nodes: seq<Node>)
    requires AllInRange(blocks)
    ensures Grouping(LinkAll(blocks, resolve), groups)
    ensures |nodes| == |groups| <= |blocks|
    ensures forall p :: 0 <= p < |groups| ==>
      nodes[p].Element? && (groups[p].List? ==> |nodes[p].children| == |groups[p].blocks|)
    ensures NoMedia(blocks) ==> TextOfSeq(nodes) == Texts(blocks)
  {
    groups := GroupBlocks(blocks, resolve);
    LinkAllKeeps(blocks, resolve);
    nodes := RenderGroups(groups, resolve);
  }
}

=== FILE: serializer.dfy ===
/** The node builder `asElement` and its static type-to-tag table.

    asElement dispatches on the `type` string (here `kind`, as `type` is a Dafny keyword) of whatever it is given: a
    block, a list group or a span. The three kinds of descriptor carry
    different fields, and a field a descriptor lacks reads as absent, as an
    undefined property does in the original. */
module Serializer {
  import opened Nodes

  /** A span's payload: a link target for hyperlinks, a label name for
      labels, nothing for strong and em. */
  datatype SpanData = NoData | Link(target: string) | LabelName(name: string)

  /** An annotation over the half-open range [start, end) of a block's text. */
  datatype Span = Span(start: int, end: int, kind: string, data: SpanData)

  /** One block of structured text. Image fields (`url`, `alt`, `copyright`,
      `linkTo`, `linkUrl`) and embed fields (`embedUrl`, `providerName`,
      `oembedHtml`) are absent on other blocks. `linkTo` is the image's link
      target; `linkUrl` is that target resolved to a URL, which the block
      grouping pass fills in before rendering. */
  datatype Block = Block(
    kind: string,
    classLabel: Option<string>,
    text: string,
    spans: seq<Span>,
    url: Option<string>,
    alt: Option<string>,
    copyright: Option<string>,
    linkTo: Option<string>,
    linkUrl: Option<string>,
    embedUrl: Option<string>,
    providerName: Option<string>,
    oembedHtml: string)

  /** What asElement is called on: a block, a list group (`{type, blocks}`),
      or a span together with the URL `open` resolved for it. */
  datatype Descriptor =
    | BlockOf(block: Block)
    | GroupOf(groupType: string)
    | SpanOf(span: Span, url: Option<string>)

  /** The fixed tag table. */
  const TagNames: map<string, string> := map[
    "heading1" := "h1",
    "heading2" := "h2",
    "heading3" := "h3",
    "heading4" := "h4",
    "heading5" := "h5",
    "heading6" := "h6",
    "paragraph" := "p",
    "preformatted" := "pre",
    "list-item" := "li",
    "o-list-item" := "li",
    "group-list-item" := "ul",
    "group-o-list-item" := "ol",
    "strong" := "strong",
    "em" := "em"
  ]

  function TypeOf(d: Descriptor): string {
    match d
    case BlockOf(b) => b.kind
    case GroupOf(t) => t
    case SpanOf(s, _) => s.kind
  }

  /** `element.label`: only blocks carry one. */
  function LabelOf(d: Descriptor): Option<string> {
    if d.BlockOf? then d.block.classLabel else None
  }

  /** `element.url`: an image block's source, or a hyperlink span's resolved URL. */
  function UrlOf(d: Descriptor): Option<string> {
    match d
    case BlockOf(b) => b.url
    case GroupOf(_) => None
    case SpanOf(_, u) => u
  }

  /** `element.data.label`: only label spans carry one. */
  function DataLabelOf(d: Descriptor): Option<string> {
    if d.SpanOf? && d.span.data.LabelName? then Some(d.span.data.name) else None
  }

  /** A block-only field, absent on groups and spans. */
  function BlockField(d: Descriptor, f: Block -> Option<string>): Option<string> {
    if d.BlockOf? then f(d.block) else None
  }

  /** An attribute that is set when its value is present. */
  function Attr(name: string, value: Option<string>): map<string, string> {
    if value.Some? then map[name := value.value] else map[]
  }

  /** An attribute written as `value || null`: set only when truthy. */
  function TruthyAttr(name: string, value: Option<string>): map<string, string> {
    if Truthy(value) then map[name := value.value] else map[]
  }

  /** The class of a table-driven or embed element: the label, when truthy. */
  function ClassAttr(cls: Option<string>): map<string, string> {
    TruthyAttr("class", cls)
  }

  /** The class of an image paragraph: "block-img", then the label if truthy. */
  function ImageClass(cls: Option<string>): string {
    if Truthy(cls) then "block-img " + cls.value else "block-img"
  }

  /** The comment the fallback container carries for an unknown type. */
  function Warning(t: string): string {
    " Warning: \"" + t + "\" not implemented. Upgrade the Developer Kit. "
  }

  /** The image element inside an image paragraph. */
  function ImageNode(d: Descriptor): Node {
    Element("img",
      Attr("src", UrlOf(d))
        + TruthyAttr("alt", BlockField(d, (b: Block) => b.alt))
        + TruthyAttr("copyright", BlockField(d, (b: Block) => b.copyright)),
      [])
  }

  /** The embed container's attributes; `data-oembed-type` is the
      descriptor's own type, which is always "embed" on this branch. */
  function EmbedAttrs(d: Descriptor): (m: map<string, string>)
    ensures m.Keys <= {"data-oembed", "data-oembed-type", "data-oembed-provider", "class"}
    ensures "data-oembed-type" in m && m["data-oembed-type"] == TypeOf(d)
    ensures d.BlockOf? && d.block.embedUrl.Some? ==>
      "data-oembed" in m && m["data-oembed"] == d.block.embedUrl.value
    ensures d.BlockOf? && d.block.providerName.Some? ==>
      "data-oembed-provider" in m && m["data-oembed-provider"] == d.block.providerName.value
    ensures "class" in m <==> Truthy(LabelOf(d))
    ensures Truthy(LabelOf(d)) ==> m["class"] == LabelOf(d).value
  {
    Attr("data-oembed", BlockField(d, (b: Block) => b.embedUrl))
      + map["data-oembed-type" := TypeOf(d)]
      + Attr("data-oembed-provider", BlockField(d, (b: Block) => b.providerName))
      + ClassAttr(LabelOf(d))
  }

  /** The raw markup assigned to `innerHTML`; empty markup parses to no node. */
  function EmbedChildren(d: Descriptor): seq<Node> {
    if d.BlockOf? && d.block.oembedHtml != "" then [Raw(d.block.oembedHtml)] else []
  }

  /** Builds the node for a descriptor and its already-built content. Total:
      every type yields an element. */
  function AsElement(d: Descriptor, content: Content): (n: Node)
    ensures n.Element?
    ensures TypeOf(d) in TagNames ==>
      n.tag == TagNames[TypeOf(d)] && n.children == Children(content)
      && n.attrs == (if Truthy(LabelOf(d)) then map["class" := LabelOf(d).value] else map[])
    ensures TypeOf(d) == "image" ==>
      n.tag == "p" && n.attrs == map["class" := ImageClass(LabelOf(d))] && |n.children| == 1
    ensures TypeOf(d) == "embed" ==>
      n.tag == "div"
      && n.attrs.Keys <= {"data-oembed", "data-oembed-type", "data-oembed-provider", "class"}
      && "data-oembed-type" in n.attrs && n.attrs["data-oembed-type"] == "embed"
      && (d.BlockOf? && d.block.embedUrl.Some? ==>
            "data-oembed" in n.attrs && n.attrs["data-oembed"] == d.block.embedUrl.value)
      && (d.BlockOf? && d.block.providerName.Some? ==>
            "data-oembed-provider" in n.attrs && n.attrs["data-oembed-provider"] == d.block.providerName.value)
      && ("class" in n.attrs <==> Truthy(LabelOf(d)))
      && (Truthy(LabelOf(d)) ==> n.attrs["class"] == LabelOf(d).value)
      && n.children == (if d.BlockOf? && d.block.oembedHtml != "" then [Raw(d.block.oembedHtml)] else [])
    ensures TypeOf(d) == "hyperlink" ==>
      n.tag == "a" && n.children == Children(content)
      && n.attrs == (if UrlOf(d).Some? then map["href" := UrlOf(d).value] else map[])
    ensures TypeOf(d) == "label" ==>
      n.tag == "span" && n.children == Children(content)
      && n.attrs == (if d.SpanOf? && d.span.data.LabelName? then map["class" := d.span.data.name] else map[])
    ensures TypeOf(d) !in TagNames && TypeOf(d) !in {"image", "embed", "hyperlink", "label"} ==>
      n.tag == "div" && n.attrs == map[] && n.children == [Comment(Warning(TypeOf(d)))] + Children(content)
  {
    var t := TypeOf(d);
    if t in TagNames then
      Element(TagNames[t], ClassAttr(LabelOf(d)), Children(content))
    else if t == "image" then
      var img := ImageNode(d);
      var link := BlockField(d, (b: Block) => b.linkUrl);
      var child := if Truthy(link) then Element("a", map["href" := link.value], [img]) else img;
      Element("p", map["class" := ImageClass(LabelOf(d))], [child])
    else if t == "embed" then
      Element("div", EmbedAttrs(d), EmbedChildren(d))
    else if t == "hyperlink" then
      Element("a", Attr("href", UrlOf(d)), Children(content))
    else if t == "label" then
      Element("span", Attr("class", DataLabelOf(d)), Children(content))
    else
      Element("div", map[], [Comment(Warning(t))] + Children(content))
  }

  /** Every type except image and embed keeps its content: the node's text is
      exactly the content's text, and it adds exactly one element to the
      content's elements. Image and embed nodes drop the content. */
  lemma ContentPreserved(d: Descriptor, content: Content)
    ensures TypeOf(d) != "image" && TypeOf(d) != "embed" ==>
      TextOf(AsElement(d, content)) == TextOfSeq(Children(content))
      && ElementCount(AsElement(d, content)) == 1 + ElementCountSeq(Children(content))
    ensures TypeOf(d) == "embed" ==> TextOf(AsElement(d, content)) == ""
  {
    var t := TypeOf(d);
    var n := AsElement(d, content);
    var kids := Children(content);
    if t in TagNames {
      assert n == Element(TagNames[t], ClassAttr(LabelOf(d)), kids);
    } else if t == "embed" {
      EmbedNoText(d, content);
    } else if t == "hyperlink" {
      assert n == Element("a", Attr("href", UrlOf(d)), kids);
    } else if t == "label" {
      assert n == Element("span", Attr("class", DataLabelOf(d)), kids);
    } else if t != "image" {
      var warn := Comment(Warning(t));
      assert n == Element("div", map[], [warn] + kids);
      SingleNode(warn);
      TextOfSeqAppend([warn], kids);
      ElementCountSeqAppend([warn], kids);
    }
  }

  /** An embed's element holds at most its raw HTML, which carries no text. */
  lemma EmbedNoText(d: Descriptor, content: Content)
    requires TypeOf(d) == "embed"
    ensures TextOf(AsElement(d, content)) == ""
  {
    var kids := EmbedChildren(d);
    assert "embed" !in TagNames;
    assert AsElement(d, content) == Element("div", EmbedAttrs(d), kids);
    if |kids| == 1 {
      SingleNode(kids[0]);
    } else {
      assert kids == [];
    }
  }

  /** A span's element as `open` creates it: asElement with no content. It
      carries no text, so all of a span element's text comes from what the
      sweep appends later; and unless the span claims the type "image" (whose
      paragraph wraps an image element) it holds no nested element either. */
  lemma SpanShellEmpty(s: Span, url: Option<string>)
    ensures TextOfSeq(AsElement(SpanOf(s, url), Absent).children) == ""
    ensures s.kind != "image" ==> ElementCountSeq(AsElement(SpanOf(s, url), Absent).children) == 0
  {
    var kids := AsElement(SpanOf(s, url), Absent).children;
    if |kids| == 1 {
      assert kids[..0] == [];
      if s.kind == "image" {
        assert kids[0] == ImageNode(SpanOf(s, url));
      } else {
        assert kids[0].Comment?;
      }
    }
  }

  /** An image always renders as a paragraph around one image, linked when the
      block carries a truthy link URL; its content is ignored. */
  lemma ImageShape(b: Block, content: Content)
    requires b.kind == "image"
    ensures AsElement(BlockOf(b), content).tag == "p"
    ensures var child := AsElement(BlockOf(b), content).children[0];
      if Truthy(b.linkUrl) then
        child == Element("a", map["href" := b.linkUrl.value], [ImageNode(BlockOf(b))])
      else
        child == ImageNode(BlockOf(b))
    ensures "class" in AsElement(BlockOf(b), content).attrs
    ensures var cls := AsElement(BlockOf(b), content).attrs["class"];
      (Truthy(b.classLabel) ==> cls == "block-img " + b.classLabel.value)
      && (!Truthy(b.classLabel) ==> cls == "block-img")
  {
  }
}

=== FILE: span_resolver.dfy ===
/** insertSpans: the sweep that turns a block's text and its spans into a
    forest of nested inline elements. */
module SpanResolver {
  import opened Nodes
  import opened Serializer
  import opened SweepSteps
  import opened Nesting
  import opened ElementText

  /** Before the first offset nothing is live and nothing has been placed. */
  lemma InitialNest(text: string, spans: seq<Span>)
    requires WellFormed(text, spans)
    ensures NestInv(spans, 0, Initial)
  {
    assert IdsOf(Initial.stack) == [];
  }

  /** The sweep loop over offsets 0 .. |text| (the offset |text| closes the
      spans that end with the text). It keeps the sweep invariant, and for
      laminar spans also the nesting and text invariants. */
  method RunSweep(text: string, spans: seq<Span>, shells: seq<Frame>) returns (st: Sweep)
    requires WellFormed(text, spans) && ShellsFor(spans, shells)
    ensures Inv(text, spans, |text| + 1, st)
    ensures Laminar(spans) ==> NestInv(spans, |text| + 1, st) && TextInv(text, spans, |text| + 1, st)
  {
    InitialInv(text, spans);
    InitialNest(text, spans);
    InitialText(text, spans);
    st := Initial;
    var i := 0;
    while i <= |text|
      invariant i <= |text| + 1
      invariant Inv(text, spans, i, st)
      invariant Laminar(spans) ==> NestInv(spans, i, st) && TextInv(text, spans, i, st)
      decreases |text| + 1 - i
    {
      StepInv(text, spans, shells, i, st);
      StepNest(text, spans, shells, i, st);
      if Laminar(spans) {
        StepTexts(text, spans, shells, i, st);
      }
      st := Step(text, spans, shells, i, st);
      i := i + 1;
    }
    assert i == |text| + 1;
  }

  /** The complete sweep. Afterwards the stack is empty, no text is lost,
      every span has been closed exactly once, and there is one element per
      span. For laminar spans every element sits where its range says:
      inside the element of its immediate parent, or at the top level when
      no span encloses it; and it holds exactly the text of its range. */
  method Resolve(text: string, spans: seq<Span>, resolve: string -> Option<string>) returns (r: Sweep)
    requires WellFormed(text, spans)
    ensures r.stack == [] && r.top == 0
    ensures TextOfSeq(r.html) + r.content == text
    ensures forall k: nat :: k in r.parent <==> k < |spans|
    ensures NoImageSpans(spans) ==> ElementCountSeq(r.html) == |spans|
    ensures Laminar(spans) ==>
      forall k: nat :: k < |spans| ==> k in r.parent && Placed(spans, k, r.parent[k])
    ensures Laminar(spans) ==>
      forall k: nat :: k < |spans| ==> k in r.texts && r.texts[k] == text[spans[k].start..spans[k].end]
  {
    var shells := Shells(spans, resolve);
    ShellsShape(spans, resolve);
    r := RunSweep(text, spans, shells);
    FinalInv(text, spans, r);
    if Laminar(spans) {
      forall k: nat | k < |spans| ensures k in r.parent && Placed(spans, k, r.parent[k]) {
        assert PlacedIn(spans, r.parent, k);
      }
    }
  }

  /** Placement read both ways: a span's recorded destination is span j
      exactly when j is its immediate parent, and the top level exactly when
      no span encloses it. */
  lemma PlacedIff(text: string, spans: seq<Span>, k: nat, dest: Option<nat>, j: nat)
    requires WellFormed(text, spans) && Laminar(spans)
    requires k < |spans| && j < |spans| && Placed(spans, k, dest)
    ensures dest == Some(j) <==> ImmediateParent(spans, j, k)
    ensures dest == None <==> Outermost(spans, k)
  {
    if ImmediateParent(spans, j, k) && dest != Some(j) && dest.Some? {
      ImmediateParentUnique(text, spans, dest.value, j, k);
    }
  }

  /** A strong span over [0, 10) around an em span over [2, 5) is properly
      nested: the strong element goes to the top level and the em element
      inside it. */
  lemma NestingPlacement()
    ensures var spans := [Span(0, 10, "strong", NoData), Span(2, 5, "em", NoData)];
      Laminar(spans) && Placed(spans, 0, None) && Placed(spans, 1, Some(0))
  {
    var spans := [Span(0, 10, "strong", NoData), Span(2, 5, "em", NoData)];
    assert !Encloses(spans, 1, 0) && !Encloses(spans, 0, 0);
    assert !Encloses(spans, 1, 1);
  }

  /** The top level followed by the trailing text node, if any, carries the
      held text after the top level's and adds no element. */
  lemma TrailingText(html: seq<Node>, content: string)
    ensures var trailing := if |content| > 0 then [Text(content)] else [];
      TextOfSeq(html + trailing) == TextOfSeq(html) + content
      && ElementCountSeq(html + trailing) == ElementCountSeq(html)
  {
    if |content| > 0 {
      assert (html + [Text(content)])[..|html|] == html;
    } else {
      assert html + [] == html;
    }
  }

  /** A lone text node carries the text and no element. */
  lemma SingleText(text: string)
    ensures TextOfSeq([Text(text)]) == text && ElementCountSeq([Text(text)]) == 0
  {
    TrailingText([], text);
    assert [] + [Text(text)] == [Text(text)];
  }

  /** insertSpans: with no spans, a single text node holding the whole text;
      otherwise the swept top level, followed by any trailing buffered text.
      The `parent` out-parameter is where each span's element was attached,
      and `texts` the text each span's element holds. */
  method InsertSpans(text: string, spans: seq<Span>, resolve: string -> Option<string>)
    returns (c: Content, parent: map<nat, Option<nat>>, texts: map<nat, string>)
    requires WellFormed(text, spans)
    ensures |spans| == 0 ==> c == One(Text(text))
    ensures |spans| > 0 ==> c.Many?
    ensures TextOfSeq(Children(c)) == text
    ensures NoImageSpans(spans) ==> ElementCountSeq(Children(c)) == |spans|
    ensures forall k: nat :: k in parent <==> k < |spans|
    ensures Laminar(spans) ==>
      forall k: nat :: k < |spans| ==> k in parent && Placed(spans, k, parent[k])
    ensures Laminar(spans) ==>
      forall k: nat :: k < |spans| ==> k in texts && texts[k] == text[spans[k].start..spans[k].end]
  {
    if |spans| == 0 {
      SingleText(text);
      c := One(Text(text));
      parent := map[];
      texts := map[];
    } else {
      var r := Resolve(text, spans, resolve);
      var trailing := if |r.content| > 0 then [Text(r.content)] else [];
      TrailingText(r.html, r.content);
      assert TextOfSeq(r.html + trailing) == text;
      c := Many(r.html + trailing);
      parent := r.parent;
      texts := r.texts;
    }
  }

  /** The worked example run through insertSpans: over any text of at least
      ten characters, strong over [0, 10) goes to the top level holding the
      first ten characters, and em over [2, 5) goes inside strong holding
      characters 2 to 4. */
  method NestingExample(text: string, resolve: string -> Option<string>)
    returns (c: Content, parent: map<nat, Option<nat>>, texts: map<nat, string>)
    requires |text| >= 10
    ensures TextOfSeq(Children(c)) == text
    ensures 0 in parent && parent[0] == None && 1 in parent && parent[1] == Some(0)
    ensures 0 in texts && texts[0] == text[..10] && 1 in texts && texts[1] == text[2..5]
  {
    var spans := [Span(0, 10, "strong", NoData), Span(2, 5, "em", NoData)];
    NestingPlacement();
    c, parent, texts := InsertSpans(text, spans, resolve);
    PlacedIff(text, spans, 0, parent[0], 1);
    PlacedIff(text, spans, 1, parent[1], 0);
    assert spans[0].start == 0 && spans[0].end == 10;
  }
}

=== FILE: sweep_steps.dfy ===
/** The steps of insertSpans' sweep, and the invariant each step keeps.

    The sweep's mutable locals (`html`, `stack`, `top`, `content`) become an
    immutable `Sweep` state, and `close`, the buffer flush, `open` and the
    character buffering become functions from state to state. Each stack
    frame remembers which span opened it, and `close` records, for the frame
    it pops, where the finished element went (`parent`: the span of the frame
    it was attached to, or None for the top level) and the text the finished
    element holds (`texts`). These records are how the model names elements;
    the sweep itself never consults them. */
module SweepSteps {
  import opened Nodes
  import opened Serializer
  import opened Buckets

  /** An element still open on the stack: the span that opened it and the
      element built so far. */
  datatype Frame = Frame(id: nat, tag: string, attrs: map<string, string>, children: seq<Node>)

  /** The sweep's state: finished top-level nodes, the open-element stack,
      the index `top`, the text buffer, and, for each closed element, where
      it went and the text it holds. */
  datatype Sweep = Sweep(
    html: seq<Node>,
    stack: seq<Frame>,
    top: int,
    content: string,
    parent: map<nat, Option<nat>>,
    texts: map<nat, string>)

  const Initial: Sweep := Sweep([], [], 0, "", map[], map[])

  /** `top` indexes the stack's last frame, and is 0 when the stack is empty. */
  predicate TopInv(st: Sweep) {
    if |st.stack| > 0 then st.top == |st.stack| - 1 else st.top == 0
  }

  /** The spans of the open frames, bottom to top. */
  function IdsOf(stack: seq<Frame>): (ids: seq<nat>)
    ensures |ids| == |stack|
    ensures forall p :: 0 <= p < |stack| ==> ids[p] == stack[p].id
  {
    seq(|stack|, p requires 0 <= p < |stack| => stack[p].id)
  }

  /** A span `open` can push: a hyperlink whose data does not convert to a
      link is skipped instead. */
  predicate Opens(s: Span) {
    s.kind == "hyperlink" ==> s.data.Link?
  }

  /** The inputs the sweep is modelled for: every span lies inside the text,
      is not empty, and opens. */
  predicate WellFormed(text: string, spans: seq<Span>) {
    forall k :: 0 <= k < |spans| ==>
      0 <= spans[k].start < spans[k].end <= |text| && Opens(spans[k])
  }

  /** No span claims the type "image" (the only span type whose element
      starts with an element inside it). */
  predicate NoImageSpans(spans: seq<Span>) {
    forall k :: 0 <= k < |spans| ==> spans[k].kind != "image"
  }

  /** The finished element a frame becomes when closed with `content` buffered. */
  function Finish(f: Frame, content: string): Node {
    Element(f.tag, f.attrs, f.children + [Text(content)])
  }

  /** `close`: pops the most recently opened frame whatever span is closing,
      appends the buffer to it as its last child (even when empty), clears
      the buffer, and attaches the element to the new top frame, or to the
      top level when the stack is now empty. */
  function Close(st: Sweep): (r: Sweep)
    requires |st.stack| > 0 && TopInv(st)
    ensures TopInv(r) && |r.stack| == |st.stack| - 1 && r.content == ""
    ensures IdsOf(r.stack) == IdsOf(st.stack)[..|st.stack| - 1]
    ensures var n := |r.stack|;
      r.parent == st.parent[st.stack[n].id := if n == 0 then None else Some(st.stack[n - 1].id)]
    ensures var n := |r.stack|;
      r.texts == st.texts[st.stack[n].id := TextOf(Finish(st.stack[n], st.content))]
  {
    var n := |st.stack| - 1;
    var f := st.stack[n];
    var el := Finish(f, st.content);
    var rest := st.stack[..n];
    if st.top == 0 then
      st.(html := st.html + [el], stack := rest, content := "", parent := st.parent[f.id := None],
          texts := st.texts[f.id := TextOf(el)])
    else
      var top := st.top - 1;
      var g := rest[top];
      st.(stack := rest[top := g.(children := g.children + [el])], top := top, content := "",
          parent := st.parent[f.id := Some(g.id)], texts := st.texts[f.id := TextOf(el)])
  }

  /** The flush before a start bucket: a non-empty buffer becomes a text node
      of the top frame, or of the top level when no frame is open. */
  function Flush(st: Sweep): (r: Sweep)
    requires TopInv(st)
    ensures TopInv(r) && r.content == "" && IdsOf(r.stack) == IdsOf(st.stack)
    ensures r.parent == st.parent && r.texts == st.texts
  {
    if |st.content| == 0 then st
    else if 0 <= st.top < |st.stack| then
      var g := st.stack[st.top];
      st.(stack := st.stack[st.top := g.(children := g.children + [Text(st.content)])], content := "")
    else
      st.(html := st.html + [Text(st.content)], content := "")
  }

  /** The element `open` pushes for span k: the span's element as asElement
      builds it with no content, a hyperlink carrying its resolved target
      (none when its data does not convert to a link; such a span is never
      pushed). It holds no text and, unless the span claims the type "image",
      no nested element. */
  function SpanFrame(spans: seq<Span>, k: nat, resolve: string -> Option<string>): (f: Frame)
    requires k < |spans|
    ensures f.id == k
    ensures TextOfSeq(f.children) == ""
    ensures spans[k].kind != "image" ==> ElementCountSeq(f.children) == 0
    ensures spans[k].kind == "hyperlink" && spans[k].data.Link? ==>
      var url := resolve(spans[k].data.target);
      f.tag == "a" && f.children == []
      && f.attrs == (if url.Some? then map["href" := url.value] else map[])
    ensures spans[k].kind in TagNames ==>
      f.tag == TagNames[spans[k].kind] && f.attrs == map[] && f.children == []
    ensures spans[k].kind == "label" ==>
      f.tag == "span" && f.children == []
      && f.attrs == (if spans[k].data.LabelName? then map["class" := spans[k].data.name] else map[])
  {
    var s := spans[k];
    var url := if s.kind == "hyperlink" && s.data.Link? then resolve(s.data.target) else None;
    var e := AsElement(SpanOf(s, url), Absent);
    SpanShellEmpty(s, url);
    Frame(k, e.tag, e.attrs, e.children)
  }

  /** The elements of all spans, by registration index. Each depends only on
      its span and the resolver, so the sweep is handed this table and `open`
      looks its element up rather than building it. */
  function Shells(spans: seq<Span>, resolve: string -> Option<string>): (shells: seq<Frame>)
    ensures |shells| == |spans|
    ensures forall k :: 0 <= k < |spans| ==> shells[k] == SpanFrame(spans, k, resolve)
  {
    seq(|spans|, k requires 0 <= k < |spans| => SpanFrame(spans, k, resolve))
  }

  /** A table of span elements as `Shells` builds it: one per span, naming
      its span, with no text and, except for "image" spans, no element. */
  predicate ShellsFor(spans: seq<Span>, shells: seq<Frame>) {
    |shells| == |spans|
    && forall k :: 0 <= k < |shells| ==>
      shells[k].id == k && TextOfSeq(shells[k].children) == ""
      && (spans[k].kind != "image" ==> ElementCountSeq(shells[k].children) == 0)
  }

  lemma ShellsShape(spans: seq<Span>, resolve: string -> Option<string>)
    ensures ShellsFor(spans, Shells(spans, resolve))
  {
  }

  /** `open`: pushes the element of span k (a hyperlink with its target
      resolved) and points `top` at it. A hyperlink whose data does not
      convert to a link is skipped. */
  function Open(st: Sweep, spans: seq<Span>, k: nat, shells: seq<Frame>): (r: Sweep)
    requires k < |spans| && ShellsFor(spans, shells)
    ensures TopInv(st) ==> TopInv(r)
    ensures Opens(spans[k]) ==> IdsOf(r.stack) == IdsOf(st.stack) + [k]
    ensures !Opens(spans[k]) ==> r == st
    ensures r.parent == st.parent && r.texts == st.texts && r.content == st.content
  {
    var s := spans[k];
    if s.kind == "hyperlink" && !s.data.Link? then st
    else st.(stack := st.stack + [shells[k]], top := |st.stack|)
  }

  /** Buffers the character at offset i; the last offset has none. */
  function Buffer(st: Sweep, text: string, i: nat): (r: Sweep)
    ensures r.stack == st.stack && r.top == st.top && r.html == st.html
    ensures r.parent == st.parent && r.texts == st.texts
    ensures i < |text| ==> r.content == st.content + [text[i]]
    ensures i >= |text| ==> r.content == st.content
  {
    if i < |text| then st.(content := st.content + [text[i]]) else st
  }

  /** Runs `close` n times: the top n frames are popped, and their spans,
      and only they, join the record of closed elements. */
  function CloseN(st: Sweep, n: nat): (r: Sweep)
    requires |st.stack| >= n && TopInv(st)
    ensures TopInv(r) && |r.stack| == |st.stack| - n
    ensures IdsOf(r.stack) == IdsOf(st.stack)[..|st.stack| - n]
    ensures forall k :: k in r.parent <==> k in st.parent || k in IdsOf(st.stack)[|st.stack| - n..]
    decreases n
  {
    if n == 0 then st
    else
      var ids := IdsOf(st.stack);
      var s := |ids|;
      assert ids[..s - 1][..s - 1 - (n - 1)] == ids[..s - n];
      assert ids[s - n..] == ids[..s - 1][s - n..] + [ids[s - 1]];
      CloseN(Close(st), n - 1)
  }

  /** Runs `open` for each span of a bucket, in bucket order. */
  function OpenAll(st: Sweep, spans: seq<Span>, ks: seq<nat>, shells: seq<Frame>): (r: Sweep)
    requires ShellsFor(spans, shells)
    requires Indices(spans, ks)
    ensures TopInv(st) ==> TopInv(r)
    ensures r.parent == st.parent && r.texts == st.texts && r.content == st.content
    ensures (forall p :: 0 <= p < |ks| ==> Opens(spans[ks[p]])) ==> IdsOf(r.stack) == IdsOf(st.stack) + ks
    decreases |ks|
  {
    if |ks| == 0 then
      assert IdsOf(st.stack) + ks == IdsOf(st.stack);
      st
    else
      var st' := Open(st, spans, ks[0], shells);
      var tail := ks[1..];
      assert ks == [ks[0]] + tail;
      OpenAll(st', spans, tail, shells)
  }

  /** The opening half of an offset: when spans start at i, the buffer is
      flushed and the start bucket opened in order. */
  function OpenBucket(st: Sweep, spans: seq<Span>, shells: seq<Frame>, i: int): (r: Sweep)
    requires ShellsFor(spans, shells)
    requires TopInv(st)
    ensures TopInv(r) && r.parent == st.parent && r.texts == st.texts
    ensures (forall k :: 0 <= k < |spans| ==> Opens(spans[k])) ==>
      IdsOf(r.stack) == IdsOf(st.stack) + StartBucket(spans, i)
  {
    var b := StartBucket(spans, i);
    if |b| > 0 then OpenAll(Flush(st), spans, b, shells)
    else
      assert IdsOf(st.stack) + b == IdsOf(st.stack);
      st
  }

  /** One offset of the sweep: the closes, then (if any span starts here) the
      flush and the opens, then the character. The frames of the end bucket
      come off the top, the start bucket goes on, and the character at i is
      the last one buffered. */
  function Step(text: string, spans: seq<Span>, shells: seq<Frame>, i: nat, st: Sweep): (r: Sweep)
    requires ShellsFor(spans, shells)
    requires TopInv(st) && |st.stack| >= |EndBucket(spans, i)|
    ensures TopInv(r)
    ensures (forall k :: 0 <= k < |spans| ==> Opens(spans[k])) ==>
      IdsOf(r.stack) == IdsOf(st.stack)[..|st.stack| - |EndBucket(spans, i)|] + StartBucket(spans, i)
    ensures i < |text| ==> |r.content| > 0 && r.content[|r.content| - 1] == text[i]
  {
    var e := |EndBucket(spans, i)|;
    var closed := CloseN(st, e);
    assert IdsOf(closed.stack) == IdsOf(st.stack)[..|st.stack| - e];
    var pushed := OpenBucket(closed, spans, shells, i);
    var r := Buffer(pushed, text, i);
    assert r.stack == pushed.stack;
    r
  }

  // ---------------------------------------------------------------------
  // The measures the invariant keeps.

  /** The text held by the open frames, bottom to top. */
  function FramesText(stack: seq<Frame>): string {
    if |stack| == 0 then "" else FramesText(stack[..|stack| - 1]) + TextOfSeq(stack[|stack| - 1].children)
  }

  /** The elements held by the open frames, each frame's own element included. */
  function FramesCount(stack: seq<Frame>): nat {
    if |stack| == 0 then 0 else FramesCount(stack[..|stack| - 1]) + 1 + ElementCountSeq(stack[|stack| - 1].children)
  }

  /** All text the state holds, in document order. */
  function StateText(st: Sweep): string {
    TextOfSeq(st.html) + FramesText(st.stack) + st.content
  }

  function StateCount(st: Sweep): nat {
    ElementCountSeq(st.html) + FramesCount(st.stack)
  }

  /** The spans that have started before offset i. */
  function OpenedBefore(spans: seq<Span>, i: int): set<nat> {
    set k: nat | k < |spans| && spans[k].start < i
  }

  /** Every started span is either open on the stack, once, or closed,
      once, with a recorded destination. */
  ghost predicate Ledger(ids: seq<nat>, parent: map<nat, Option<nat>>, started: set<nat>) {
    && (forall p, q :: 0 <= p < q < |ids| ==> ids[p] != ids[q])
    && (forall k :: k in ids ==> k !in parent)
    && (forall k :: k in started <==> (k in parent || k in ids))
  }

  /** The sweep invariant, with the stack size, element count, started set and
      buffered prefix length as parameters. */
  ghost predicate Core(text: string, spans: seq<Span>, st: Sweep, size: int, count: int, started: set<nat>, upto: nat) {
    && TopInv(st)
    && |st.stack| == size
    && upto <= |text|
    && StateText(st) == text[..upto]
    && (NoImageSpans(spans) ==> StateCount(st) == count)
    && Ledger(IdsOf(st.stack), st.parent, started)
  }

  /** The invariant at the head of offset i. */
  ghost predicate Inv(text: string, spans: seq<Span>, i: nat, st: Sweep) {
    && i <= |text| + 1
    && Core(text, spans, st,
        NumStartBefore(spans, i) - NumEndBefore(spans, i),
        NumStartBefore(spans, i),
        OpenedBefore(spans, i),
        if i <= |text| then i else |text|)
  }

  // ---------------------------------------------------------------------
  // Each phase keeps the invariant.

  lemma FramesTextSnoc(pre: seq<Frame>, g: Frame)
    ensures FramesText(pre + [g]) == FramesText(pre) + TextOfSeq(g.children)
    ensures FramesCount(pre + [g]) == FramesCount(pre) + 1 + ElementCountSeq(g.children)
  {
    assert (pre + [g])[..|pre|] == pre;
  }

  lemma TextSnoc(ns: seq<Node>, x: Node)
    ensures TextOfSeq(ns + [x]) == TextOfSeq(ns) + TextOf(x)
    ensures ElementCountSeq(ns + [x]) == ElementCountSeq(ns) + ElementCount(x)
  {
    assert (ns + [x])[..|ns|] == ns;
  }

  lemma FinishMeasures(f: Frame, content: string)
    ensures TextOf(Finish(f, content)) == TextOfSeq(f.children) + content
    ensures ElementCount(Finish(f, content)) == 1 + ElementCountSeq(f.children)
  {
    TextSnoc(f.children, Text(content));
  }

  /** `close` appends the buffer to the popped element as its last child and
      attaches the element to the frame below, or to the top level. */
  lemma CloseEffect(st: Sweep)
    requires |st.stack| > 0 && TopInv(st)
    ensures var r := Close(st);
      var f := st.stack[|st.stack| - 1];
      var n := |r.stack|;
      if n == 0 then
        r.html == st.html + [Finish(f, st.content)]
      else
        r.html == st.html
        && r.stack[..n - 1] == st.stack[..n - 1]
        && r.stack[n - 1] == st.stack[n - 1].(children := st.stack[n - 1].children + [Finish(f, st.content)])
  {
  }

  /** `close` moves text and elements from the top frame to its destination
      unchanged. */
  lemma CloseMeasures(st: Sweep)
    requires |st.stack| > 0 && TopInv(st)
    ensures StateText(Close(st)) == StateText(st)
    ensures StateCount(Close(st)) == StateCount(st)
  {
    var n := |st.stack| - 1;
    var f := st.stack[n];
    var el := Finish(f, st.content);
    var pre := st.stack[..n];
    FinishMeasures(f, st.content);
    assert st.stack == pre + [f];
    FramesTextSnoc(pre, f);
    if n == 0 {
      var r := Close(st);
      assert r.html == st.html + [el] && r.stack == [] && r.content == "";
      TextSnoc(st.html, el);
    } else {
      var r := Close(st);
      TopTextMeasures(pre, el);
      assert r.html == st.html && r.content == "";
      assert r.stack == pre[n - 1 := pre[n - 1].(children := pre[n - 1].children + [el])];
    }
  }

  /** Popping the last open span and recording it keeps the ledger. */
  lemma LedgerPop(ids: seq<nat>, parent: map<nat, Option<nat>>, started: set<nat>, dest: Option<nat>)
    requires |ids| > 0 && Ledger(ids, parent, started)
    ensures Ledger(ids[..|ids| - 1], parent[ids[|ids| - 1] := dest], started)
  {
    var n := |ids| - 1;
    assert ids == ids[..n] + [ids[n]];
    forall k | k in ids[..n] ensures k != ids[n] {
      var p :| 0 <= p < n && ids[..n][p] == k;
    }
  }

  /** Pushing a span not yet started keeps the ledger. */
  lemma LedgerPush(ids: seq<nat>, parent: map<nat, Option<nat>>, started: set<nat>, k: nat)
    requires Ledger(ids, parent, started) && k !in started
    ensures Ledger(ids + [k], parent, started + {k})
  {
  }

  lemma CloseCore(text: string, spans: seq<Span>, st: Sweep, size: int, count: int, started: set<nat>, upto: nat)
    requires Core(text, spans, st, size, count, started, upto) && size > 0
    ensures Core(text, spans, Close(st), size - 1, count, started, upto)
  {
    CloseMeasures(st);
    var n := |st.stack| - 1;
    var dest := if n == 0 then None else Some(st.stack[n - 1].id);
    LedgerPop(IdsOf(st.stack), st.parent, started, dest);
  }

  /** The flush moves the buffer into a text node, losing nothing. */
  lemma FlushMeasures(st: Sweep)
    requires TopInv(st)
    ensures StateText(Flush(st)) == StateText(st)
    ensures StateCount(Flush(st)) == StateCount(st)
  {
    if |st.content| == 0 {
      assert Flush(st) == st;
    } else {
      if 0 <= st.top < |st.stack| {
        var n := |st.stack| - 1;
        var stack' := st.stack[n := st.stack[n].(children := st.stack[n].children + [Text(st.content)])];
        var r := st.(stack := stack', content := "");
        assert Flush(st) == r;
        TopTextMeasures(st.stack, Text(st.content));
        assert StateText(r) == TextOfSeq(st.html) + FramesText(stack');
        assert StateCount(r) == ElementCountSeq(st.html) + FramesCount(stack');
      } else {
        var r := st.(html := st.html + [Text(st.content)], content := "");
        assert Flush(st) == r;
        TextSnoc(st.html, Text(st.content));
        assert StateText(r) == TextOfSeq(r.html) + FramesText(st.stack);
      }
    }
  }

  /** Appending a node to the top frame adds its text and elements to the frames'. */
  lemma TopTextMeasures(stack: seq<Frame>, x: Node)
    requires |stack| > 0
    ensures var n := |stack| - 1;
      var stack' := stack[n := stack[n].(children := stack[n].children + [x])];
      FramesText(stack') == FramesText(stack) + TextOf(x)
      && FramesCount(stack') == FramesCount(stack) + ElementCount(x)
  {
    var n := |stack| - 1;
    var g := stack[n];
    var g' := g.(children := g.children + [x]);
    var pre := stack[..n];
    assert stack == pre + [g];
    assert stack[n := g'] == pre + [g'];
    FramesTextSnoc(pre, g);
    FramesTextSnoc(pre, g');
    TextSnoc(g.children, x);
  }

  lemma FlushCore(text: string, spans: seq<Span>, st: Sweep, size: int, count: int, started: set<nat>, upto: nat)
    requires Core(text, spans, st, size, count, started, upto)
    ensures Core(text, spans, Flush(st), size, count, started, upto)
  {
    FlushMeasures(st);
  }

  /** `open` pushes an element holding no text and, unless the span claims the
      type "image", no nested element. */
  lemma OpenMeasures(st: Sweep, spans: seq<Span>, k: nat, shells: seq<Frame>)
    requires ShellsFor(spans, shells)
    requires k < |spans| && Opens(spans[k])
    ensures StateText(Open(st, spans, k, shells)) == StateText(st)
    ensures spans[k].kind != "image" ==> StateCount(Open(st, spans, k, shells)) == StateCount(st) + 1
  {
    var fr := shells[k];
    FramesTextSnoc(st.stack, fr);
    assert Open(st, spans, k, shells).stack == st.stack + [fr];
  }

  lemma OpenCore(text: string, spans: seq<Span>, st: Sweep, size: int, count: int, started: set<nat>, upto: nat,
                 k: nat, shells: seq<Frame>)
    requires ShellsFor(spans, shells)
    requires Core(text, spans, st, size, count, started, upto)
    requires k < |spans| && Opens(spans[k]) && k !in started
    ensures Core(text, spans, Open(st, spans, k, shells), size + 1, count + 1, started + {k}, upto)
  {
    OpenMeasures(st, spans, k, shells);
    LedgerPush(IdsOf(st.stack), st.parent, started, k);
  }

  /** Running a bucket of new, distinct spans pushes one element per span. */
  lemma {:induction false} OpenAllCore(text: string, spans: seq<Span>, st: Sweep, size: int, count: int,
                                        started: set<nat>, upto: nat, ks: seq<nat>, shells: seq<Frame>)
    requires ShellsFor(spans, shells)
    requires Core(text, spans, st, size, count, started, upto)
    requires Indices(spans, ks)
    requires forall p :: 0 <= p < |ks| ==> Opens(spans[ks[p]]) && ks[p] !in started
    requires forall p, q :: 0 <= p < q < |ks| ==> ks[p] != ks[q]
    ensures Core(text, spans, OpenAll(st, spans, ks, shells), size + |ks|, count + |ks|,
                 started + ElemSet(ks), upto)
    decreases |ks|
  {
    if |ks| == 0 {
      assert started + ElemSet(ks) == started;
    } else {
      OpenCore(text, spans, st, size, count, started, upto, ks[0], shells);
      var st' := Open(st, spans, ks[0], shells);
      var tail := ks[1..];
      forall p | 0 <= p < |tail| ensures Opens(spans[tail[p]]) && tail[p] !in started + {ks[0]} {
        assert tail[p] == ks[p + 1];
      }
      forall p, q | 0 <= p < q < |tail| ensures tail[p] != tail[q] {
        assert tail[p] == ks[p + 1] && tail[q] == ks[q + 1];
      }
      OpenAllCore(text, spans, st', size + 1, count + 1, started + {ks[0]}, upto, tail, shells);
      ElemSetCons(ks);
      assert (started + {ks[0]}) + ElemSet(tail) == started + ElemSet(ks);
      assert OpenAll(st, spans, ks, shells) == OpenAll(st', spans, tail, shells);
      assert size + 1 + |tail| == size + |ks| && count + 1 + |tail| == count + |ks|;
    }
  }

  /** `close` run n times, on a stack with at least n frames. */
  lemma {:induction false} CloseNCore(text: string, spans: seq<Span>, st: Sweep, size: int, count: int,
                                       started: set<nat>, upto: nat, n: nat)
    requires Core(text, spans, st, size, count, started, upto) && n <= size
    ensures Core(text, spans, CloseN(st, n), size - n, count, started, upto)
    decreases n
  {
    if n > 0 {
      CloseCore(text, spans, st, size, count, started, upto);
      CloseNCore(text, spans, Close(st), size - 1, count, started, upto, n - 1);
    }
  }

  /** Buffering the character at the next offset extends the held prefix. */
  lemma BufferCore(text: string, spans: seq<Span>, st: Sweep, size: int, count: int, started: set<nat>, i: nat)
    requires Core(text, spans, st, size, count, started, if i <= |text| then i else |text|)
    ensures Core(text, spans, Buffer(st, text, i), size, count, started, if i + 1 <= |text| then i + 1 else |text|)
  {
    if i < |text| {
      assert text[..i + 1] == text[..i] + [text[i]];
    }
  }

  /** The elements of a list, as a set. */
  function ElemSet(ks: seq<nat>): set<nat> {
    set k | k in ks
  }

  lemma ElemSetCons(ks: seq<nat>)
    requires |ks| > 0
    ensures ElemSet(ks) == {ks[0]} + ElemSet(ks[1..])
  {
    assert ks == [ks[0]] + ks[1..];
  }

  /** The spans started by offset i + 1 are those started by i plus its start bucket. */
  lemma OpenedStep(spans: seq<Span>, i: int)
    ensures OpenedBefore(spans, i + 1) == OpenedBefore(spans, i) + ElemSet(StartBucket(spans, i))
  {
  }

  /** The closes of offset i pop only frames that exist. */
  lemma ClosePhase(text: string, spans: seq<Span>, i: nat, st: Sweep)
    requires WellFormed(text, spans) && i <= |text| && Inv(text, spans, i, st)
    ensures |st.stack| >= |EndBucket(spans, i)|
    ensures Core(text, spans, CloseN(st, |EndBucket(spans, i)|),
                 NumStartBefore(spans, i) - NumEndBefore(spans, i + 1),
                 NumStartBefore(spans, i), OpenedBefore(spans, i), i)
  {
    var m := |EndBucket(spans, i)|;
    var ns := NumStartBefore(spans, i);
    var ne := NumEndBefore(spans, i);
    EndCountStep(spans, i);
    EndsWithinStarts(spans, i);
    CloseNCore(text, spans, st, ns - ne, ns, OpenedBefore(spans, i), i, m);
  }

  /** Flushing and then opening a bucket of new spans in open order pushes
      one frame per span; an empty bucket changes nothing. */
  lemma OpenBucketCore(text: string, spans: seq<Span>, st: Sweep, size: int, count: int,
                       started: set<nat>, upto: nat, b: seq<nat>, shells: seq<Frame>)
    requires ShellsFor(spans, shells)
    requires Core(text, spans, st, size, count, started, upto)
    requires Indices(spans, b) && OpenOrder(spans, b)
    requires forall p :: 0 <= p < |b| ==> Opens(spans[b[p]]) && b[p] !in started
    ensures Core(text, spans, if |b| > 0 then OpenAll(Flush(st), spans, b, shells) else st,
                 size + |b|, count + |b|, started + ElemSet(b), upto)
  {
    if |b| > 0 {
      FlushCore(text, spans, st, size, count, started, upto);
      forall p, q | 0 <= p < q < |b| ensures b[p] != b[q] {
        assert Before(spans, b[p], b[q]);
      }
      OpenAllCore(text, spans, Flush(st), size, count, started, upto, b, shells);
    } else {
      assert started + ElemSet(b) == started;
    }
  }

  /** The flush and opens of offset i push exactly its start bucket. */
  lemma OpenPhase(text: string, spans: seq<Span>, shells: seq<Frame>, i: nat, st: Sweep)
    requires ShellsFor(spans, shells)
    requires WellFormed(text, spans) && i <= |text|
    requires Core(text, spans, st, NumStartBefore(spans, i) - NumEndBefore(spans, i + 1),
                  NumStartBefore(spans, i), OpenedBefore(spans, i), i)
    ensures Core(text, spans, OpenBucket(st, spans, shells, i),
           NumStartBefore(spans, i + 1) - NumEndBefore(spans, i + 1),
           NumStartBefore(spans, i + 1), OpenedBefore(spans, i + 1), i)
  {
    var b := StartBucket(spans, i);
    var started := OpenedBefore(spans, i);
    var ns := NumStartBefore(spans, i);
    var size := ns - NumEndBefore(spans, i + 1);
    forall p | 0 <= p < |b| ensures Opens(spans[b[p]]) && b[p] !in started {
      assert spans[b[p]].start == i;
    }
    OpenBucketCore(text, spans, st, size, ns, started, i, b, shells);
    StartCountStep(spans, i);
    OpenedStep(spans, i);
    assert size + |b| == NumStartBefore(spans, i + 1) - NumEndBefore(spans, i + 1);
  }

  /** One offset of the sweep pops |EndBucket(i)| frames, then pushes the
      start bucket of i; nothing else touches the frames or the record. */
  lemma StepShape(text: string, spans: seq<Span>, shells: seq<Frame>, i: nat, st: Sweep)
    requires ShellsFor(spans, shells)
    requires WellFormed(text, spans) && TopInv(st) && |st.stack| >= |EndBucket(spans, i)|
    ensures var closed := CloseN(st, |EndBucket(spans, i)|);
      var r := Step(text, spans, shells, i, st);
      IdsOf(r.stack) == IdsOf(closed.stack) + StartBucket(spans, i) && r.parent == closed.parent
  {
  }


  /** One offset of the sweep keeps the invariant: its closes pop only frames
      that exist, and its opens add exactly its start bucket. */
  lemma StepInv(text: string, spans: seq<Span>, shells: seq<Frame>, i: nat, st: Sweep)
    requires ShellsFor(spans, shells)
    requires WellFormed(text, spans) && i <= |text| && Inv(text, spans, i, st)
    ensures |st.stack| >= |EndBucket(spans, i)|
    ensures Inv(text, spans, i + 1, Step(text, spans, shells, i, st))
  {
    ClosePhase(text, spans, i, st);
    var closed := CloseN(st, |EndBucket(spans, i)|);
    OpenPhase(text, spans, shells, i, closed);
    var b := StartBucket(spans, i);
    var pushed := OpenBucket(closed, spans, shells, i);
    BufferCore(text, spans, pushed, NumStartBefore(spans, i + 1) - NumEndBefore(spans, i + 1),
               NumStartBefore(spans, i + 1), OpenedBefore(spans, i + 1), i);
  }

  lemma {:induction false} NoneBeforeZero(spans: seq<Span>)
    requires forall k :: 0 <= k < |spans| ==> 0 <= spans[k].start < spans[k].end
    ensures NumStartBefore(spans, 0) == 0 && NumEndBefore(spans, 0) == 0
    decreases |spans|
  {
    if |spans| > 0 {
      NoneBeforeZero(spans[..|spans| - 1]);
    }
  }

  /** The sweep starts with nothing started and nothing held. */
  lemma InitialInv(text: string, spans: seq<Span>)
    requires WellFormed(text, spans)
    ensures Inv(text, spans, 0, Initial)
  {
    NoneBeforeZero(spans);
    assert OpenedBefore(spans, 0) == {};
    assert IdsOf(Initial.stack) == [];
  }

  /** Past the last offset every span has been opened and closed. */
  lemma FinalInv(text: string, spans: seq<Span>, r: Sweep)
    requires WellFormed(text, spans) && Inv(text, spans, |text| + 1, r)
    ensures r.stack == [] && r.top == 0
    ensures TextOfSeq(r.html) + r.content == text
    ensures forall k: nat :: k in r.parent <==> k < |spans|
    ensures NoImageSpans(spans) ==> ElementCountSeq(r.html) == |spans|
  {
    AllCounted(spans, |text|);
    assert |r.stack| == 0;
    assert text[..|text|] == text;
    assert forall k: nat :: k < |spans| ==> spans[k].start < |text| + 1;
    assert IdsOf(r.stack) == [];
  }
}
